=== FILE: README.md ===
# FIDE rating scraper — a Dafny model

This project models the decision logic of the FIDE rating scraper and proves properties of it. The scraper reads a roster of FIDE ids and fetches each player's public profile page. It reads the player's name and standard, rapid and blitz ratings from the page. It prints a report or a table and keeps a dated CSV ledger of the ratings. Two companion modules act on batch results that carry a rating history and a list of newly seen months: one mails each player a summary of their rating changes, the other posts each new month to an external ratings API.

Everything that talks to the outside world is passed in as a parameter:

- the HTTP reply for a profile page;
- the texts the HTML lookups find on a page;
- the SMTP server's verdict on a message;
- the API server's reply to each try of each POST;
- environment variables, as strings;
- today's date, as a string.

Python's character classes are modelled by their ASCII versions:

- digit (`isdigit`, `\d`): `0`–`9`;
- word character (`\w`): ASCII letters, digits and `_`;
- whitespace (`strip`): tab to carriage return, 0x1C–0x1F, and space;
- `lower`: changes only `A`–`Z`.

Modules, one per file:

- `Common` (`common.dfy`): `Option`.
- `Text` (`text.dfy`): the string primitives `Strip`, `ToLower`, decimal `IntToString` / `ParseInt`, `Split` / `Join` and `PadRight`, with their round trips.
- `Profiles` (`profiles.dfy`): the scraped player record and rating display.
- `Validation` (`validation.dfy`): `validate_fide_id` and the roster line filter.
- `RatingText` (`rating_text.dfy`): the rating regex `\b(\d{3,4})\b`. It is modelled twice: as the regex engine's leftmost search, and as a declarative token predicate. The two are proved to agree. It also models the "not rated" rule.
- `Output` (`output.dfy`): the three-line report and the console table.
- `Ledger` (`ledger.dfy`): the CSV row merge, which replaces today's rows.
- `Batch` (`batch.dfy`): `process_batch`.
- `History` (`history.dfy`): the result record consumed by the notifier and the API poster, and ISO dates.
- `Email` (`email.dfy`): composing, addressing and counting notifications.
- `RatingsApi` (`ratings_api.dfy`): the configuration rule, the retry loop and the batch posting.

`write_csv_output` (fide_scraper.py:303-351) keeps a same-day-replace ledger: it drops the rows dated today and appends one row per scraped player. No function in fide_scraper.py, email_notifier.py or ratings_api.py fills in 'Rating History' or 'New Months'. So the notifier and the API poster take both as given fields of a result record.

## Model

| member | source | states |
|---|---|---|
| Validation.ValidateFideId | fide_scraper.py:40-49 | accepts exactly a string of 4 to 10 ASCII digits; None, non-strings, the empty string, any non-digit and any other length are rejected |
| Validation.ValidationExamples | tests/test_validation.py:21-65 | the ids the tests accept ("1234", "1234567890", "538026660") and reject ("123", "12345678901", "", letters, dash, space, non-strings) |
| Validation.Keep | fide_scraper.py:290-292 | a line contributes one id iff its stripped text is non-empty, and that id is the stripped text |
| Validation.ReadFideIds | fide_scraper.py:289-292 | every id read is non-empty and already stripped, and there are never more ids than lines |
| Validation.ReadFideIdsMembers | fide_scraper.py:289-292 | a line yields an id iff its stripped text is non-empty, and every id is the stripped text of some line |
| Validation.ReadFideIdsAppend | fide_scraper.py:289-292 | lines are judged one at a time and ids keep the file order: the ids of a + b are those of a followed by those of b |
| Validation.ReadFideIdsIdempotent | fide_scraper.py:289-292 | feeding the ids back through the filter returns them unchanged |
| RatingText.MatchAt | fide_scraper.py:199 | the regex tried at one position returns a length only for a word-bounded run of 3 or 4 digits there, and nothing when no such run starts there |
| RatingText.FindToken | fide_scraper.py:199 | `re.search` finds a token at the leftmost position that has one, and reports none only when no token exists from the start position on |
| RatingText.ExtractRatingFromText | fide_scraper.py:198-205 | the result is None or in [0, 3000]; no token gives None; otherwise it is the value of the leftmost token when at most 3000 and None when larger, with later tokens never tried |
| RatingText.ClassifyRatingText | fide_scraper.py:122-131 | "not rated" / "unrated" in any letter case gives no rating; any other text gives what the number search gives |
| RatingText.UnratedCheckIsRedundant | fide_scraper.py:124-131 | the explicit unrated test never changes the outcome, since those words contain no digits |
| Profiles.ShowRating | fide_scraper.py:265-267 | a present rating is shown as `str(v)` would write it: canonical decimal text (a `-` only for negatives, no leading zero, 0 as "0") that reads back as the rating; an absent one as the caller's word |
| Output.FormatRatingsOutput | fide_scraper.py:265-269 | the report splits back into exactly the lines "Standard: X", "Rapid: Y" and "Blitz: Z", each value the decimal rating or "Unrated", and reading it back returns exactly the three ratings, "Unrated" meaning absent |
| Output.HeaderIsTitleRow | fide_scraper.py:370-371 | the fixed 89-character title line is exactly the six titles laid out in the row columns, so each title starts where its column starts |
| Output.Columns | fide_scraper.py:389 | date, id and name occupy columns 0-11, 13-24 and 26-65, each left-justified, when they fit their widths; from column 67 come the standard cell padded to 9, a space, the rapid cell padded to 6, a space and the blitz cell unpadded |
| Output.DisplayName | fide_scraper.py:379-386 | the shown name is never empty and at most 40 long: "Unknown" for an empty name, the name itself up to 40 characters, else its first 37 characters and "..." |
| Output.ConsoleRow | fide_scraper.py:376-390 | a row puts today's date, the id and the display name in their columns, then the three ratings as decimal text ("Unrated" when absent), standard padded to 9 and rapid to 6 |
| Output.FormatConsoleOutput | fide_scraper.py:364-392 | no players gives the fixed no-data message; otherwise the text starts with the header line and ends with a newline |
| Output.ConsoleOutputLines | fide_scraper.py:368-392 | when no field holds a newline, the table splits into exactly header, separator, one row per player in order, and the empty text after the final newline (players + 3 pieces) |
| Ledger.Cell | fide_scraper.py:347-349 | the cell is empty iff the rating is absent; a present rating is written as canonical decimal text that reads back as it, and 0 is written as exactly "0" |
| Ledger.ProfileRow | fide_scraper.py:343-350 | a new row carries today's date, the player's id and name, and cells that read back as the three ratings |
| Ledger.KeepOtherDays | fide_scraper.py:323-329 | a row is kept iff it was in the file and is not dated today |
| Ledger.KeepOtherDaysNoneToday | fide_scraper.py:323-329 | rows none of which is dated today all survive, unchanged and in order |
| Ledger.KeepOtherDaysAllToday | fide_scraper.py:323-329 | rows all dated today are all dropped |
| Ledger.KeepOtherDaysAppend | fide_scraper.py:326-329 | rows are filtered one at a time, so the kept rows keep their file order |
| Text.CanonicalIntText | fide_scraper.py:347-349 | canonical decimal text that reads back as a number is unique, so every cell the model writes is exactly Python's `str` of the rating |
| Ledger.MergeRows | fide_scraper.py:321-351 | the file becomes exactly the existing rows not dated today, in their order, then one row per player in order; no row dated today is left ahead of the new rows |
| Ledger.MergeRowsReplacesSameDay | fide_scraper.py:321-351 | a second run on the same day leaves the file as if only the second run had happened |
| Ledger.MergeRowsIdempotent | fide_scraper.py:305-309 | running twice on the same day with the same players gives the rows of one run |
| Ledger.MergeRowsKeepsEarlierDays | fide_scraper.py:321-351 | a run on another day keeps the earlier day's rows in place, ahead of its own rows |
| Batch.FetchFideProfile | fide_scraper.py:83-94 | status 404 means "player not found"; any other status in 400-599 is an HTTP error carrying that status; every other status hands back the page body; a failed connection, a timeout and any other failure each become their own error |
| Batch.RatingFromBox | fide_scraper.py:111-135 | a rating from a page is None or in [0, 3000]; None for an empty page or a missing paragraph; otherwise the classification of the paragraph's text |
| Batch.ExtractProfile | fide_scraper.py:424-430 | the record carries the requested id and in-range ratings; an empty page yields no name and no ratings; otherwise the name is the page's name lookup ("" when missing) and each rating is read from its own box |
| Batch.ProcessOne | fide_scraper.py:410-456 | an invalid id is an error without a fetch; for a valid id, each fetch failure is reported as its own kind (not found, network error with its detail, timeout, HTTP error with its status, unexpected error with its detail), and a fetched page with no name and no rating as "no data"; the id becomes a result iff it is valid, the page was fetched and it yields a name or a rating; every error names its id |
| Batch.ProcessBatch | fide_scraper.py:395-459 | results plus errors number exactly the ids; every result has a valid id from the input and carries data; every error names an input id |
| Batch.ProcessBatchAppend | fide_scraper.py:410-459 | ids are handled independently and in order: the batch of a + b is the batch of a followed by the batch of b |
| Batch.FailureIsIsolated | fide_scraper.py:446-457 | a failing id adds its one error and leaves the other ids' results and errors as without it |
| Batch.InvalidIdsNeverFetched | fide_scraper.py:412-418 | the fetcher's replies for invalid ids cannot change the batch |
| History.FixedDigits | ratings_api.py:196 | the number written zero-padded to a fixed width reads back as the number |
| History.IsoFormatRoundTrip | ratings_api.py:196 | the ISO text of a date parses back to its year, month and day |
| History.PayloadDate | ratings_api.py:196 | a date is sent as ISO text that reads back as the date, another object as its text, and an absent date as "None" |
| Email.SortedKindsAreSorted | email_notifier.py:77-84 | the iteration order Blitz, Rapid, Standard is what `sorted` gives for the dictionary's keys: the same three kinds, each once, in strictly ascending string order |
| Email.Shown | email_notifier.py:88-90 | an absent rating shows as "unrated", a present one as canonical decimal text, as `str(v)` writes it, that reads back as it |
| Email.RatingLines | email_notifier.py:71-107 | with two or more months, exactly three change lines, Blitz, Rapid, Standard, each from the second entry to the first; with one month, Standard, Rapid, Blitz of that month; with none, no lines |
| Email.ComposeNotificationEmail | email_notifier.py:61 | the subject is the fixed prefix followed by exactly the player's name |
| Email.NotificationBodyLines | email_notifier.py:57-120 | the body splits back into its lines: greeting, 0 or 3 rating lines, and a footer holding "FIDE ID: id" and "Profile: url", the url defaulting to the player's FIDE profile page |
| Email.OnlyTwoLatestMonthsMatter | email_notifier.py:71-93 | histories that agree on their first two entries give the same email |
| Email.SenderAddress | email_notifier.py:170-180 | the sender is never empty: FROM_EMAIL if non-blank, else SMTP_USERNAME if non-blank, else noreply@chesshub.cloud, each stripped |
| Email.CcAddress | email_notifier.py:189-190 | a copy address is used iff one is given and not blank, and then stripped and non-empty |
| Email.PlanMessage | email_notifier.py:179-207 | the recipients are the recipient, then the copy address iff there is one; the sender follows the fallback rule; login happens iff user name and password are both set |
| Email.SendEmailNotification | email_notifier.py:175-218 | a missing or empty recipient fails without contacting the server; otherwise the outcome is the server's verdict on the planned message |
| Email.Eligible | email_notifier.py:275-287 | a result is notified iff it has new months, its id has a contact entry, and that entry's address is not blank |
| Email.NotifyOne | email_notifier.py:264-308 | an eligible result's outcome is the server's verdict on its message: to the stripped contact address, copied to the stripped ADMIN_CC_EMAIL iff that is non-blank |
| Email.EligibleAppend | email_notifier.py:275-287 | the results are judged one by one: the eligible results of a list in two parts are those of the first part followed by those of the second, so order and repeats are kept |
| Email.EligibleAllKept | email_notifier.py:275-287 | when every result is eligible, every result is notified, in its place and as often as it is listed |
| Email.EligibleNoneKept | email_notifier.py:275-287 | when no result is eligible, nobody is notified |
| Email.SendBatchNotifications | email_notifier.py:263-316 | sent plus failed is exactly the number of eligible results, and sent is the number of those the server accepts |
| RatingsApi.LoadApiConfig | ratings_api.py:28-44 | a configuration exists iff both settings are non-blank, and then holds both stripped values |
| RatingsApi.PostRatingToApi | ratings_api.py:98-150 | at most max_retries + 1 tries, at least one when the budget is non-negative; true iff the last try got 200; every earlier try got a retryable reply; a failure stops at a final reply or at the budget; true iff some try within the budget gets 200 after only retryable replies |
| RatingsApi.BuildPayload | ratings_api.py:195-202 | the payload carries the result's id ("unknown" when absent) and name and the month's three ratings; its date is ISO text that reads back as the date, the text of any other date value, or "None" when the date is absent |
| RatingsApi.ResultPayloads | ratings_api.py:193-202 | one payload per new month, in month order |
| RatingsApi.AllPayloadsCount | ratings_api.py:182-214 | a batch has exactly as many payloads as new-month records |
| RatingsApi.NoNewMonthsNoPayloads | ratings_api.py:183-186 | results without new months post nothing |
| RatingsApi.PostNewMonths | ratings_api.py:193-214 | every new month of a result is posted once, in order, and counted once as posted or failed |
| RatingsApi.PostAllResults | ratings_api.py:182-214 | results are taken in order, skipping those without new months: the posts are all payloads of the batch, each counted once, and posted is the number of posts that succeed |
| RatingsApi.SendBatchApiUpdates | ratings_api.py:172-221 | without a configuration nothing is posted and the counts are (0, 0); otherwise the posts are all payloads of the batch in order, posted plus failed is the number of new-month records, and posted is the number of posts that succeed |

## Left out

- HTTP fetching (`requests.get`, `requests.post`) is not modelled. It is replaced by reply parameters, so timeouts and headers play no part.
- HTML parsing is not modelled. The BeautifulSoup lookups in `_extract_rating_by_selector` and `extract_player_name`, with their fallbacks and swallowed exceptions, are a parameter that supplies the found texts. Only the text rules applied to those texts are modelled.
- The SMTP connection, STARTTLS, login, the MIME message and its text are not modelled. The server is a parameter that accepts or rejects a planned message.
- SMTP_SERVER and SMTP_PORT are not modelled. In particular, a SMTP_PORT that `int()` rejects makes `_send_email_notification` return False; the model folds that case into the server's verdict.
- Replies depend only on the request, not on when or how often it is made. The fetcher gives the same reply for every occurrence of an id in the roster, and the SMTP server gives the same verdict on identical messages; in the code, a repeated id is fetched again and may get a different reply.
- Logging and the progress lines printed to stderr are not modelled.
- Error message texts are not modelled. Errors are a datatype that names the id and the cause.
- Environment variables and `date.today()` are parameters, as strings.
- Opening, decoding and writing files are not modelled. `read_fide_ids_from_file` is modelled on its lines, and `write_csv_output` on its rows. CSV quoting and the header row are not modelled.
- `main`, argument parsing, stdin input and exit codes are not modelled.
- `construct_fide_url` is only the `ProfileUrl` string.
- `validate_email` is not defined in the modelled `fide_scraper.py`, so it is not modelled.
- Unicode is not modelled. Python's digit, whitespace, word-character and lower-case rules are modelled by their ASCII versions.
- Exceptions inside `send_batch_api_updates` (ratings_api.py:217-219) are not modelled. Building a payload or posting is assumed not to raise. On that path the code adds every new month of the result to `failed`, even months already counted, so the identity posted + failed = new months holds only when nothing raises.
- The `except Exception` branch of `send_batch_notifications` (email_notifier.py:312-314) is not modelled separately: composing cannot raise here, and the send function catches its own errors.
- RatingsApi.PostRatingToApi: the reply is looked up per try; the `timeout` argument and the reading of the error body are not modelled.
- History.PayloadDate: a `datetime`, whose `isoformat()` includes a time, is not distinguished from a `date`.
- History.DateValue: a date's day is only known to lie in 1..31, not checked against its month; ISO formatting does not depend on it.

=== FILE: batch.dfy ===
/**
 * `process_batch`: every id is validated, fetched and read on its own, and lands either
 * among the results or among the errors. The HTTP transport and the HTML/DOM lookups
 * are parameters of the model.
 */
module Batch {
  import opened Common
  import opened Text
  import opened Validation
  import opened RatingText
  import opened Profiles

  /** What the HTTP GET of a profile page produced. */
  datatype HttpReply =
    | Response(status: int, body: string)
    | ConnectFailed(detail: string)
    | TimedOut
    | OtherFailure(detail: string)

  /** The outcome of `fetch_fide_profile`, its exceptions included. */
  datatype FetchOutcome =
    | Page(html: string)
    | NotFound
    | NetworkError(detail: string)
    | Timeout
    | HttpError(status: int)
    | Unexpected(detail: string)

  /** `fetch_fide_profile`: an error status (400-599) raises, except 404, which means "no
      such player"; any other status hands back the page. */
  function FetchFideProfile(reply: HttpReply): (o: FetchOutcome)
    ensures o.NotFound? <==> reply.Response? && reply.status == 404
    ensures o.Page? <==> reply.Response? && !(400 <= reply.status < 600)
    ensures o.Page? ==> o.html == reply.body
    ensures o.HttpError? ==> o.status != 404 && 400 <= o.status < 600
    ensures reply.Response? && 400 <= reply.status < 600 && reply.status != 404 ==> o == HttpError(reply.status)
    ensures reply.ConnectFailed? ==> o == NetworkError(reply.detail)
    ensures reply.TimedOut? ==> o.Timeout?
    ensures reply.OtherFailure? ==> o == Unexpected(reply.detail)
  {
    match reply
    case Response(status, body) =>
      if 400 <= status < 600 then
        if status == 404 then NotFound else HttpError(status)
      else
        Page(body)
    case ConnectFailed(detail) => NetworkError(detail)
    case TimedOut => Timeout
    case OtherFailure(detail) => Unexpected(detail)
  }

  /** What the DOM lookups find on a non-empty page: the name `extract_player_name`
      settles on, and the stripped text of the first paragraph of each rating box
      (`None` when the box or its paragraph is missing). */
  datatype PageTexts = PageTexts(
    name: Option<string>,
    standardText: Option<string>,
    rapidText: Option<string>,
    blitzText: Option<string>)

  predicate RatingInRange(r: Option<int>) {
    r.None? || 0 <= r.value <= MaxRating
  }

  /** `_extract_rating_by_selector` once the box is located: an empty page or a missing
      paragraph gives no rating, otherwise the paragraph text is classified. */
  function RatingFromBox(html: string, text: Option<string>): (r: Option<int>)
    ensures RatingInRange(r)
    ensures html == "" || text.None? ==> r.None?
    ensures html != "" && text.Some? ==> r == ClassifyRatingText(text.value)
  {
    if html == "" then None
    else match text
      case Some(t) => ClassifyRatingText(t)
      case None => None
  }

  /** The profile read from a fetched page; `extract_player_name(html) or ""` makes a
      missing name the empty name. */
  function ExtractProfile(id: string, html: string, select: string -> PageTexts): (p: Profile)
    ensures p.fideId == id
    ensures RatingInRange(p.standard) && RatingInRange(p.rapid) && RatingInRange(p.blitz)
    ensures html == "" ==> p == Profile(id, "", None, None, None)
    ensures html != "" ==>
      && p.name == select(html).name.GetOr("")
      && p.standard == RatingFromBox(html, select(html).standardText)
      && p.rapid == RatingFromBox(html, select(html).rapidText)
      && p.blitz == RatingFromBox(html, select(html).blitzText)
  {
    var texts := select(html);
    var name := if html == "" then "" else texts.name.GetOr("");
    Profile(id, name,
            RatingFromBox(html, texts.standardText),
            RatingFromBox(html, texts.rapidText),
            RatingFromBox(html, texts.blitzText))
  }

  /** A page yielded something: at least one rating or a non-empty name. */
  predicate HasData(p: Profile) {
    p.standard.Some? || p.rapid.Some? || p.blitz.Some? || p.name != ""
  }

  /** Why one id was skipped; each carries the id. */
  datatype BatchError =
    | InvalidFormat(id: string)
    | PlayerNotFound(id: string)
    | NoData(id: string)
    | Network(id: string, detail: string)
    | RequestTimeout(id: string)
    | Http(id: string, status: int)
    | UnexpectedError(id: string, detail: string)

  datatype Outcome = Success(profile: Profile) | Failure(error: BatchError)

  /** The loop body of `process_batch` for one id. */
  function ProcessOne(id: string, fetch: string -> HttpReply, select: string -> PageTexts): (o: Outcome)
    ensures o.Failure? ==> o.error.id == id
    ensures !IsValidFideId(id) ==> o == Failure(InvalidFormat(id))
    ensures IsValidFideId(id) ==>
      var f := FetchFideProfile(fetch(id));
      && (f.NotFound? ==> o == Failure(PlayerNotFound(id)))
      && (f.NetworkError? ==> o == Failure(Network(id, f.detail)))
      && (f.Timeout? ==> o == Failure(RequestTimeout(id)))
      && (f.HttpError? ==> o == Failure(Http(id, f.status)))
      && (f.Unexpected? ==> o == Failure(UnexpectedError(id, f.detail)))
      && (f.Page? && !HasData(ExtractProfile(id, f.html, select)) ==> o == Failure(NoData(id)))
    ensures o.Success? <==>
      && IsValidFideId(id)
      && FetchFideProfile(fetch(id)).Page?
      && HasData(ExtractProfile(id, FetchFideProfile(fetch(id)).html, select))
    ensures o.Success? ==>
      && o.profile == ExtractProfile(id, FetchFideProfile(fetch(id)).html, select)
      && o.profile.fideId == id
  {
    if !IsValidFideId(id) then
      Failure(InvalidFormat(id))
    else
      match FetchFideProfile(fetch(id))
      case NotFound => Failure(PlayerNotFound(id))
      case NetworkError(detail) => Failure(Network(id, detail))
      case Timeout => Failure(RequestTimeout(id))
      case HttpError(status) => Failure(Http(id, status))
      case Unexpected(detail) => Failure(UnexpectedError(id, detail))
      case Page(html) =>
        var p := ExtractProfile(id, html, select);
        if HasData(p) then Success(p) else Failure(NoData(id))
  }

  datatype BatchResult = BatchResult(results: seq<Profile>, errors: seq<BatchError>)

  /** Results and errors of two batches, one after the other. */
  function Concat(a: BatchResult, b: BatchResult): BatchResult {
    BatchResult(a.results + b.results, a.errors + b.errors)
  }

  /** `process_batch`. */
  function ProcessBatch(ids: seq<string>, fetch: string -> HttpReply, select: string -> PageTexts): (r: BatchResult)
    ensures |r.results| + |r.errors| == |ids|
    ensures forall k :: 0 <= k < |r.results| ==>
      && IsValidFideId(r.results[k].fideId)
      && HasData(r.results[k])
      && r.results[k].fideId in ids
    ensures forall k :: 0 <= k < |r.errors| ==> r.errors[k].id in ids
  {
    if ids == [] then
      BatchResult([], [])
    else
      var rest := ProcessBatch(ids[1..], fetch, select);
      assert forall x :: x in ids[1..] ==> x in ids;
      Prepend(ProcessOne(ids[0], fetch, select), rest)
  }

  /** One id's outcome in front of the outcomes of the ids after it. */
  function Prepend(o: Outcome, rest: BatchResult): BatchResult {
    match o
    case Success(p) => BatchResult([p] + rest.results, rest.errors)
    case Failure(e) => BatchResult(rest.results, [e] + rest.errors)
  }

  lemma PrependConcat(o: Outcome, x: BatchResult, y: BatchResult)
    ensures Prepend(o, Concat(x, y)) == Concat(Prepend(o, x), y)
  {
  }

  /** Each id is handled on its own and in order: the batch of `a + b` is the batch of `a`
      followed by the batch of `b`. */
  lemma {:induction false} ProcessBatchAppend(a: seq<string>, b: seq<string>, fetch: string -> HttpReply, select: string -> PageTexts)
    ensures ProcessBatch(a + b, fetch, select) == Concat(ProcessBatch(a, fetch, select), ProcessBatch(b, fetch, select))
  {
    if a == [] {
      assert a + b == b;
    } else {
      assert (a + b)[0] == a[0];
      assert (a + b)[1..] == a[1..] + b;
      ProcessBatchAppend(a[1..], b, fetch, select);
      PrependConcat(ProcessOne(a[0], fetch, select), ProcessBatch(a[1..], fetch, select), ProcessBatch(b, fetch, select));
    }
  }

  /** A batch of one id: a result or an error, as `ProcessOne` decides. */
  lemma ProcessBatchSingle(id: string, fetch: string -> HttpReply, select: string -> PageTexts)
    ensures ProcessBatch([id], fetch, select) == Prepend(ProcessOne(id, fetch, select), BatchResult([], []))
  {
    assert [id][1..] == [];
  }

  /** A failing id costs exactly one error and changes nothing else: the results, and the
      errors of the other ids, are those of the batch without it. */
  lemma FailureIsIsolated(before: seq<string>, id: string, after: seq<string>,
                          fetch: string -> HttpReply, select: string -> PageTexts)
    requires ProcessOne(id, fetch, select).Failure?
    ensures ProcessBatch(before + [id] + after, fetch, select).results == ProcessBatch(before + after, fetch, select).results
    ensures ProcessBatch(before + [id] + after, fetch, select).errors ==
      ProcessBatch(before, fetch, select).errors + [ProcessOne(id, fetch, select).error] + ProcessBatch(after, fetch, select).errors
  {
    var x := ProcessBatch(before, fetch, select);
    var y := ProcessBatch(after, fetch, select);
    var e := ProcessOne(id, fetch, select).error;
    ProcessBatchSingle(id, fetch, select);
    ProcessBatchAppend(before, [id], fetch, select);
    var withId := Concat(x, BatchResult([], [e]));
    assert ProcessBatch(before + [id], fetch, select) == withId;
    ProcessBatchAppend(before + [id], after, fetch, select);
    assert ProcessBatch(before + [id] + after, fetch, select) == Concat(withId, y);
    assert withId.results == x.results;
    ProcessBatchAppend(before, after, fetch, select);
  }

  /** Invalid ids are never fetched: the fetcher's answers for them cannot change the batch. */
  lemma {:induction false} InvalidIdsNeverFetched(ids: seq<string>, fetch1: string -> HttpReply, fetch2: string -> HttpReply,
                                                  select: string -> PageTexts)
    requires forall k :: 0 <= k < |ids| && IsValidFideId(ids[k]) ==> fetch1(ids[k]) == fetch2(ids[k])
    ensures ProcessBatch(ids, fetch1, select) == ProcessBatch(ids, fetch2, select)
  {
    if ids != [] {
      assert forall k :: 1 <= k < |ids| ==> ids[1..][k - 1] == ids[k];
      InvalidIdsNeverFetched(ids[1..], fetch1, fetch2, select);
    }
  }
}

=== FILE: common.dfy ===
/** Python's `None`-or-value, used for optional ratings, names and settings. */
module Common {

  datatype Option<+T> = None | Some(value: T) {

    /** The value, or `default` for `None` (Python's `x if x is not None else default`). */
    function GetOr(default: T): T {
      match this
      case Some(v) => v
      case None => default
    }
  }

  /** Concatenation regroups freely; stated for any element type so that proofs over
      sequences of strings need not compare the strings themselves. */
  lemma AppendAssoc<T>(x: seq<T>, y: seq<T>, z: seq<T>)
    ensures x + (y + z) == (x + y) + z
  {
  }

  /** A non-empty sequence is its head followed by its tail. */
  lemma HeadTail<T>(s: seq<T>)
    requires s != []
    ensures [s[0]] + s[1..] == s
  {
  }

  /** An element of a concatenation comes from one of its two parts. */
  lemma InAppend<T>(e: T, x: seq<T>, y: seq<T>)
    ensures e in x + y <==> e in x || e in y
  {
  }
}

=== FILE: email.dfy ===
/**
 * Rating-change notifications: composing the message (`_compose_notification_email`),
 * deciding sender and recipients (`_send_email_notification`), and the filter and
 * tally of `send_batch_notifications`. The SMTP exchange itself is a parameter.
 */
module Email {
  import opened Common
  import opened Text
  import opened Profiles
  import opened History

  // ---------------------------------------------------------------- ordering rating kinds

  /** Python's `<` on `str`: lexicographic order on code points. */
  predicate LexLess(a: string, b: string)
    decreases |a|
  {
    if a == [] then b != []
    else if b == [] then false
    else if a[0] != b[0] then a[0] < b[0]
    else LexLess(a[1..], b[1..])
  }

  predicate Sorted(s: seq<string>) {
    forall i :: 0 < i < |s| ==> LexLess(s[i - 1], s[i])
  }

  /** The rating kinds, in the order the changes dictionary lists them. */
  const RatingKinds: seq<string> := ["Standard", "Rapid", "Blitz"]

  /** `sorted(changes.keys())`: the kinds in ascending order. */
  const SortedKinds: seq<string> := ["Blitz", "Rapid", "Standard"]

  /** `SortedKinds` is what sorting gives: the same kinds, each one once, in strictly
      ascending string order. */
  lemma SortedKindsAreSorted()
    ensures Sorted(SortedKinds)
    ensures multiset(SortedKinds) == multiset(RatingKinds)
  {
    assert LexLess("Blitz", "Rapid") && LexLess("Rapid", "Standard");
    calc {
      multiset(SortedKinds);
      multiset{"Blitz"} + multiset{"Rapid"} + multiset{"Standard"};
      multiset(RatingKinds);
    }
  }

  // ---------------------------------------------------------------- composing

  /** A rating as the email shows it: `str(v)`, or "unrated". */
  function Shown(r: Option<int>): (t: string)
    ensures r.None? ==> t == "unrated"
    ensures r.Some? ==> ParseInt(t) == r && IsCanonicalInt(t)
  {
    ShowRating(r, "unrated")
  }

  function ChangeLine(kind: string, before: Option<int>, after: Option<int>): string {
    kind + " Rating: " + Shown(before) + " \U{2192} " + Shown(after)
  }

  function CurrentLine(kind: string, r: Option<int>): string {
    kind + " Rating: " + Shown(r)
  }

  /** The changes dictionary: each kind mapped to its (previous, current) pair. */
  function Changes(previous: MonthRecord, current: MonthRecord): (m: map<string, (Option<int>, Option<int>)>)
    ensures "Blitz" in m && m["Blitz"] == (previous.blitz, current.blitz)
    ensures "Rapid" in m && m["Rapid"] == (previous.rapid, current.rapid)
    ensures "Standard" in m && m["Standard"] == (previous.standard, current.standard)
  {
    assert "Blitz" != "Rapid" && "Blitz" != "Standard" && "Rapid" != "Standard";
    map["Standard" := (previous.standard, current.standard),
        "Rapid" := (previous.rapid, current.rapid),
        "Blitz" := (previous.blitz, current.blitz)]
  }

  /** One change line per kind, in the given order. */
  function ChangeLines(kinds: seq<string>, changes: map<string, (Option<int>, Option<int>)>): (lines: seq<string>)
    requires forall i :: 0 <= i < |kinds| ==> kinds[i] in changes
    ensures |lines| == |kinds|
    ensures forall i :: 0 <= i < |kinds| ==> lines[i] == ChangeLine(kinds[i], changes[kinds[i]].0, changes[kinds[i]].1)
  {
    seq(|kinds|, i requires 0 <= i < |kinds| => ChangeLine(kinds[i], changes[kinds[i]].0, changes[kinds[i]].1))
  }

  /** The rating lines: with two or more months, a change line per kind in sorted order,
      from the second entry (previous month) to the first (most recent); with one month,
      that month's three ratings; with none, nothing. */
  function RatingLines(history: seq<MonthRecord>): (lines: seq<string>)
    ensures |history| >= 2 ==> (
      lines == [ChangeLine("Blitz", history[1].blitz, history[0].blitz),
                ChangeLine("Rapid", history[1].rapid, history[0].rapid),
                ChangeLine("Standard", history[1].standard, history[0].standard)])
    ensures |history| == 1 ==> (
      lines == [CurrentLine("Standard", history[0].standard),
                CurrentLine("Rapid", history[0].rapid),
                CurrentLine("Blitz", history[0].blitz)])
    ensures history == [] ==> lines == []
  {
    if |history| >= 2 then
      var current := history[0];
      var previous := history[1];
      var changes := Changes(previous, current);
      var lines := ChangeLines(SortedKinds, changes);
      assert lines[0] == ChangeLine("Blitz", previous.blitz, current.blitz);
      assert lines[1] == ChangeLine("Rapid", previous.rapid, current.rapid);
      assert lines[2] == ChangeLine("Standard", previous.standard, current.standard);
      lines
    else if |history| == 1 then
      [CurrentLine("Standard", history[0].standard),
       CurrentLine("Rapid", history[0].rapid),
       CurrentLine("Blitz", history[0].blitz)]
    else
      []
  }

  lemma RatingLinesNoNewline(history: seq<MonthRecord>)
    ensures NoneContains(RatingLines(history), '\n')
  {
    if |history| >= 2 {
      ChangeLineNoNewline("Blitz", history[1].blitz, history[0].blitz);
      ChangeLineNoNewline("Rapid", history[1].rapid, history[0].rapid);
      ChangeLineNoNewline("Standard", history[1].standard, history[0].standard);
    } else if |history| == 1 {
      CurrentLineNoNewline("Standard", history[0].standard);
      CurrentLineNoNewline("Rapid", history[0].rapid);
      CurrentLineNoNewline("Blitz", history[0].blitz);
    }
  }

  /** The profile link: the given URL, or the player's FIDE profile page. */
  function ProfileLink(fideId: string, url: Option<string>): string {
    url.GetOr(ProfileUrl(fideId))
  }

  const SubjectPrefix := "Your FIDE Rating Update - "

  /** The body's opening sentence and closing signature. Each literal is written as two
      shorter pieces, which keeps the proof that it holds no newline small. */
  const IntroLine := "Your FIDE ratings have been updated." + " Here are the changes:"
  const Signature := "Written by Eduardo Klein" + " (https://eduklein.com.br/)"

  /** The greeting and the opening sentence, each followed by a blank line. */
  function Greeting(name: string): seq<string> {
    ["Dear " + name + ",", "", IntroLine, ""]
  }

  /** The player's id and profile link, then the sign-off. */
  function Footer(fideId: string, link: string): seq<string> {
    ["", "FIDE ID: " + fideId, "Profile: " + link, "",
     "Best regards,", "FIDE Rating Monitor", Signature]
  }

  /** The body's lines before they are joined. */
  function EmailLines(name: string, fideId: string, history: seq<MonthRecord>, link: string): seq<string> {
    Greeting(name) + RatingLines(history) + Footer(fideId, link)
  }

  datatype Notification = Notification(subject: string, body: string)

  /** `_compose_notification_email`: the subject names the player; the body's lines are
      joined with newlines. */
  function ComposeNotificationEmail(name: string, fideId: string, history: seq<MonthRecord>, url: Option<string>): (e: Notification)
    ensures |e.subject| == |SubjectPrefix| + |name|
    ensures e.subject[..|SubjectPrefix|] == SubjectPrefix && e.subject[|SubjectPrefix|..] == name
  {
    var link := ProfileLink(fideId, url);
    var subject := SubjectPrefix + name;
    Notification(subject, Join(EmailLines(name, fideId, history, link), '\n'))
  }

  lemma ChangeLineNoNewline(kind: string, before: Option<int>, after: Option<int>)
    requires '\n' !in kind
    ensures '\n' !in ChangeLine(kind, before, after)
  {
    ShowRatingNoNewline(before, "unrated");
    ShowRatingNoNewline(after, "unrated");
  }

  lemma CurrentLineNoNewline(kind: string, r: Option<int>)
    requires '\n' !in kind
    ensures '\n' !in CurrentLine(kind, r)
  {
    ShowRatingNoNewline(r, "unrated");
  }

  lemma GreetingNoNewline(name: string)
    requires '\n' !in name
    ensures NoneContains(Greeting(name), '\n')
  {
    assert '\n' !in IntroLine;
  }

  lemma FooterNoNewline(fideId: string, link: string)
    requires '\n' !in fideId && '\n' !in link
    ensures NoneContains(Footer(fideId, link), '\n')
  {
    assert '\n' !in Signature;
  }

  lemma EmailLinesNoNewline(name: string, fideId: string, history: seq<MonthRecord>, link: string)
    requires '\n' !in name && '\n' !in fideId && '\n' !in link
    ensures NoneContains(EmailLines(name, fideId, history, link), '\n')
  {
    GreetingNoNewline(name);
    RatingLinesNoNewline(history);
    FooterNoNewline(fideId, link);
    NoneContainsConcat(Greeting(name), RatingLines(history), '\n');
    NoneContainsConcat(Greeting(name) + RatingLines(history), Footer(fideId, link), '\n');
  }

  /** When the name, id and link hold no newline, the body reads back as its lines: the
      greeting, the rating lines, then a footer carrying "FIDE ID: <id>" and
      "Profile: <link>", the link defaulting to the player's FIDE profile page. */
  lemma NotificationBodyLines(name: string, fideId: string, history: seq<MonthRecord>, url: Option<string>)
    requires '\n' !in name && '\n' !in fideId
    requires url.Some? ==> '\n' !in url.value
    ensures var lines := Split(ComposeNotificationEmail(name, fideId, history, url).body, '\n');
      && |lines| == 11 + |RatingLines(history)|
      && |RatingLines(history)| == (if history == [] then 0 else 3)
      && lines[0] == "Dear " + name + ","
      && lines[4..|lines| - 7] == RatingLines(history)
      && lines[|lines| - 6] == "FIDE ID: " + fideId
      && lines[|lines| - 5] == "Profile: " + ProfileLink(fideId, url)
  {
    var link := ProfileLink(fideId, url);
    BodySplitsIntoLines(name, fideId, history, url);
    EmailLinesShape(name, fideId, history, link);
  }

  /** The body splits back into the lines it was joined from. */
  lemma BodySplitsIntoLines(name: string, fideId: string, history: seq<MonthRecord>, url: Option<string>)
    requires '\n' !in name && '\n' !in fideId
    requires url.Some? ==> '\n' !in url.value
    ensures Split(ComposeNotificationEmail(name, fideId, history, url).body, '\n')
      == EmailLines(name, fideId, history, ProfileLink(fideId, url))
  {
    var link := ProfileLink(fideId, url);
    assert '\n' !in ProfileUrl(fideId);
    EmailLinesNoNewline(name, fideId, history, link);
    SplitJoin(EmailLines(name, fideId, history, link), '\n');
  }

  lemma EmailLinesShape(name: string, fideId: string, history: seq<MonthRecord>, link: string)
    ensures var lines := EmailLines(name, fideId, history, link);
      && |lines| == 11 + |RatingLines(history)|
      && lines[0] == "Dear " + name + ","
      && lines[4..|lines| - 7] == RatingLines(history)
      && lines[|lines| - 6] == "FIDE ID: " + fideId
      && lines[|lines| - 5] == "Profile: " + link
  {
    var head := Greeting(name);
    var middle := RatingLines(history);
    var foot := Footer(fideId, link);
    var lines := head + middle + foot;
    assert lines[4..|lines| - 7] == middle;
    assert lines[|lines| - 6] == foot[1];
    assert lines[|lines| - 5] == foot[2];
  }

  /** Only the two most recent months shape the message. */
  lemma OnlyTwoLatestMonthsMatter(name: string, fideId: string, h1: seq<MonthRecord>, h2: seq<MonthRecord>, url: Option<string>)
    requires |h1| >= 2 && |h2| >= 2 && h1[..2] == h2[..2]
    ensures ComposeNotificationEmail(name, fideId, h1, url) == ComposeNotificationEmail(name, fideId, h2, url)
  {
    assert h1[0] == h1[..2][0] && h1[1] == h1[..2][1];
    assert h2[0] == h2[..2][0] && h2[1] == h2[..2][1];
  }

  // ---------------------------------------------------------------- sending one message

  const DefaultSender := "noreply@chesshub.cloud"

  /** The SMTP settings as read from the environment, an unset variable read as "". */
  datatype SmtpSettings = SmtpSettings(fromEmail: string, username: string, password: string)

  /** The envelope sender: FROM_EMAIL, else SMTP_USERNAME, else the fixed default, each
      setting stripped and skipped when blank. */
  function SenderAddress(settings: SmtpSettings): (a: string)
    ensures a != ""
    ensures Strip(settings.fromEmail) != "" ==> a == Strip(settings.fromEmail)
    ensures Strip(settings.fromEmail) == "" && Strip(settings.username) != "" ==> a == Strip(settings.username)
    ensures Strip(settings.fromEmail) == "" && Strip(settings.username) == "" ==> a == DefaultSender
  {
    var fromEmail := Strip(settings.fromEmail);
    var username := Strip(settings.username);
    if fromEmail != "" then fromEmail else if username != "" then username else DefaultSender
  }

  /** The copy address when one is given and not blank, stripped. */
  function CcAddress(cc: Option<string>): (c: Option<string>)
    ensures c.Some? <==> cc.Some? && !AllSpace(cc.value)
    ensures c.Some? ==> c.value == Strip(cc.value) && c.value != ""
  {
    if cc.Some? && Strip(cc.value) != "" then Some(Strip(cc.value)) else None
  }

  /** What is handed to the SMTP server: the envelope, the headers, the text, and whether
      to log in (only when both user name and password are set). */
  datatype Message = Message(
    sender: string,
    recipients: seq<string>,
    to: string,
    cc: Option<string>,
    subject: string,
    body: string,
    login: bool)

  function PlanMessage(settings: SmtpSettings, recipient: string, cc: Option<string>, subject: string, body: string): (m: Message)
    ensures m.sender == SenderAddress(settings) && m.to == recipient
    ensures m.cc == CcAddress(cc)
    ensures 1 <= |m.recipients| <= 2 && m.recipients[0] == recipient
    ensures |m.recipients| == 2 <==> m.cc.Some?
    ensures |m.recipients| == 2 ==> m.recipients[1] == m.cc.value
    ensures m.login <==> Strip(settings.username) != "" && Strip(settings.password) != ""
  {
    var copy := CcAddress(cc);
    var recipients := [recipient] + (if copy.Some? then [copy.value] else []);
    Message(SenderAddress(settings), recipients, recipient, copy, subject, body,
            Strip(settings.username) != "" && Strip(settings.password) != "")
  }

  /** `_send_email_notification`: a missing or empty recipient fails without contacting
      the server; otherwise the outcome is the server's. */
  function SendEmailNotification(settings: SmtpSettings, recipient: Option<string>, cc: Option<string>,
                                 subject: string, body: string, smtp: Message -> bool): (sent: bool)
    ensures sent ==> recipient.Some? && recipient.value != ""
    ensures recipient.Some? && recipient.value != "" ==>
      sent == smtp(PlanMessage(settings, recipient.value, cc, subject, body))
  {
    if recipient.None? || recipient.value == "" then false
    else smtp(PlanMessage(settings, recipient.value, cc, subject, body))
  }

  // ---------------------------------------------------------------- the batch

  /** A player's address in the contact table, "" when the entry has none. */
  function EmailOf(contact: map<string, string>): string {
    if "email" in contact then contact["email"] else ""
  }

  /** A result is notified when it has new months, its id has a contact entry, and that
      entry's address is not blank (a blank address means the player opted out). */
  predicate IsEligible(r: PlayerResult, playerData: map<string, map<string, string>>) {
    && r.newMonths != []
    && r.fideId.Some? && r.fideId.value in playerData
    && Strip(EmailOf(playerData[r.fideId.value])) != ""
  }

  /** The results to notify, in order. */
  function Eligible(results: seq<PlayerResult>, playerData: map<string, map<string, string>>): (e: seq<PlayerResult>)
    ensures |e| <= |results|
    ensures forall r :: r in e <==> r in results && IsEligible(r, playerData)
  {
    if results == [] then []
    else
      var rest := Eligible(results[1..], playerData);
      assert forall r :: r in results <==> r == results[0] || r in results[1..];
      if IsEligible(results[0], playerData) then [results[0]] + rest else rest
  }

  /** Filtering results that arrive in two parts filters each part: the eligible results
      keep their order, and a result listed twice is notified twice. */
  lemma {:induction false} EligibleAppend(a: seq<PlayerResult>, b: seq<PlayerResult>,
                                          playerData: map<string, map<string, string>>)
    ensures Eligible(a + b, playerData) == Eligible(a, playerData) + Eligible(b, playerData)
  {
    if a == [] {
      assert a + b == b;
    } else {
      assert (a + b)[0] == a[0];
      assert (a + b)[1..] == a[1..] + b;
      EligibleAppend(a[1..], b, playerData);
      var head := if IsEligible(a[0], playerData) then [a[0]] else [];
      AppendAssoc(head, Eligible(a[1..], playerData), Eligible(b, playerData));
    }
  }

  /** When every result is eligible, all of them are notified, in order and with repeats. */
  lemma {:induction false} EligibleAllKept(results: seq<PlayerResult>, playerData: map<string, map<string, string>>)
    requires forall k :: 0 <= k < |results| ==> IsEligible(results[k], playerData)
    ensures Eligible(results, playerData) == results
  {
    if results != [] {
      var tail := results[1..];
      forall k | 0 <= k < |tail| ensures IsEligible(tail[k], playerData) {
        assert tail[k] == results[k + 1];
      }
      EligibleAllKept(tail, playerData);
      assert IsEligible(results[0], playerData);
      HeadTail(results);
    }
  }

  /** When no result is eligible, nobody is notified. */
  lemma {:induction false} EligibleNoneKept(results: seq<PlayerResult>, playerData: map<string, map<string, string>>)
    requires forall k :: 0 <= k < |results| ==> !IsEligible(results[k], playerData)
    ensures Eligible(results, playerData) == []
  {
    if results != [] {
      var tail := results[1..];
      forall k | 0 <= k < |tail| ensures !IsEligible(tail[k], playerData) {
        assert tail[k] == results[k + 1];
      }
      EligibleNoneKept(tail, playerData);
    }
  }

  /** The message sent for an eligible result, copied to the administrator address. */
  function MessageFor(r: PlayerResult, playerData: map<string, map<string, string>>,
                      settings: SmtpSettings, adminCc: Option<string>): Message
    requires IsEligible(r, playerData)
  {
    var e := ComposeNotificationEmail(r.name, r.fideId.value, r.history, None);
    PlanMessage(settings, Strip(EmailOf(playerData[r.fideId.value])), adminCc, e.subject, e.body)
  }

  /** How many of the given eligible results the server accepts. */
  function Delivered(es: seq<PlayerResult>, playerData: map<string, map<string, string>>,
                     settings: SmtpSettings, adminCc: Option<string>, smtp: Message -> bool): (n: nat)
    requires forall r :: r in es ==> IsEligible(r, playerData)
    ensures n <= |es|
  {
    if es == [] then 0
    else (if smtp(MessageFor(es[0], playerData, settings, adminCc)) then 1 else 0)
         + Delivered(es[1..], playerData, settings, adminCc, smtp)
  }

  datatype Tally = Tally(sent: nat, failed: nat)

  /** One eligible result of the loop: compose the message, copy it to the administrator
      address when ADMIN_CC_EMAIL (`adminCcEnv`, "" if unset) is not blank, send it. */
  function NotifyOne(r: PlayerResult, playerData: map<string, map<string, string>>,
                     settings: SmtpSettings, adminCcEnv: string, smtp: Message -> bool): (sent: bool)
    requires IsEligible(r, playerData)
    ensures sent == smtp(MessageFor(r, playerData, settings, CcAddress(Some(adminCcEnv))))
  {
    var adminCc := if Strip(adminCcEnv) != "" then Some(Strip(adminCcEnv)) else None;
    var e := ComposeNotificationEmail(r.name, r.fideId.value, r.history, None);
    var recipient := Strip(EmailOf(playerData[r.fideId.value]));
    assert CcAddress(adminCc) == CcAddress(Some(adminCcEnv));
    SendEmailNotification(settings, Some(recipient), adminCc, e.subject, e.body, smtp)
  }

  /** `send_batch_notifications`: every eligible result is attempted once and counted as
      sent or failed; the rest are skipped. */
  function SendBatchNotifications(results: seq<PlayerResult>, playerData: map<string, map<string, string>>,
                                  settings: SmtpSettings, adminCcEnv: string, smtp: Message -> bool): (t: Tally)
    ensures t.sent + t.failed == |Eligible(results, playerData)|
    ensures t.sent == Delivered(Eligible(results, playerData), playerData, settings, CcAddress(Some(adminCcEnv)), smtp)
    decreases |results|
  {
    if results == [] then
      Tally(0, 0)
    else
      var rest := SendBatchNotifications(results[1..], playerData, settings, adminCcEnv, smtp);
      var r := results[0];
      if !IsEligible(r, playerData) then
        rest
      else
        var es := Eligible(results, playerData);
        assert es[1..] == Eligible(results[1..], playerData);
        if NotifyOne(r, playerData, settings, adminCcEnv, smtp) then
          Tally(rest.sent + 1, rest.failed)
        else
          Tally(rest.sent, rest.failed + 1)
  }
}

=== FILE: history.dfy ===
/**
 * The per-player result record the notifier and the API poster consume: the keys
 * 'FIDE ID', 'Player Name', 'Rating History' and 'New Months' of a batch result, with
 * each month record carrying a date and three optional ratings. Which code fills in the
 * history and the new months is not part of this model; both modules take the record
 * as given.
 */
module History {
  import opened Common
  import opened Text

  type Year = y: int | 1 <= y <= 9999 witness 1
  type Month = m: int | 1 <= m <= 12 witness 1
  type Day = d: int | 1 <= d <= 31 witness 1

  /** The value under a month record's "date" key: a `date` object, some other object
      (known by its `str()`), or no value at all. */
  datatype DateValue =
    | Calendar(year: Year, month: Month, day: Day)
    | Other(shown: string)
    | Missing

  /** One month of rating history; an absent rating key reads as `None`. */
  datatype MonthRecord = MonthRecord(date: DateValue, standard: Option<int>, rapid: Option<int>, blitz: Option<int>)

  /** One batch result. `fideId` is `None` when the record has no 'FIDE ID' key; a
      missing name, history or new-month list reads as empty. */
  datatype PlayerResult = PlayerResult(
    fideId: Option<string>,
    name: string,
    history: seq<MonthRecord>,
    newMonths: seq<MonthRecord>)

  // ---------------------------------------------------------------- dates as text

  function Pow10(w: nat): (p: nat)
    ensures p >= 1
  {
    if w == 0 then 1 else 10 * Pow10(w - 1)
  }

  /** `n` written with exactly `w` digits, zero-padded on the left. */
  function FixedDigits(n: nat, w: nat): (r: string)
    requires n < Pow10(w)
    ensures |r| == w && AllDigits(r)
    ensures DigitsValue(r) == n
  {
    if w == 0 then
      ""
    else
      var front := FixedDigits(n / 10, w - 1);
      var r := front + [DigitChar(n % 10)];
      assert r[..|r| - 1] == front;
      r
  }

  /** `date.isoformat()`: "YYYY-MM-DD", each field zero-padded. */
  function IsoFormat(year: Year, month: Month, day: Day): (s: string)
    ensures |s| == 10 && s[4] == '-' && s[7] == '-'
  {
    FixedDigits(year, 4) + "-" + FixedDigits(month, 2) + "-" + FixedDigits(day, 2)
  }

  /** Reads "YYYY-MM-DD" back into its three numbers. */
  function ParseIsoDate(s: string): Option<(int, int, int)> {
    if |s| == 10 && s[4] == '-' && s[7] == '-'
       && AllDigits(s[..4]) && AllDigits(s[5..7]) && AllDigits(s[8..])
    then Some((DigitsValue(s[..4]) as int, DigitsValue(s[5..7]) as int, DigitsValue(s[8..]) as int))
    else None
  }

  /** The ISO text of a date determines the date. */
  lemma IsoFormatRoundTrip(year: Year, month: Month, day: Day)
    ensures ParseIsoDate(IsoFormat(year, month, day)) == Some((year as int, month as int, day as int))
  {
    var y := FixedDigits(year, 4);
    var m := FixedDigits(month, 2);
    var d := FixedDigits(day, 2);
    var s := y + "-" + m + "-" + d;
    assert s[..4] == y;
    assert s[5..7] == m;
    assert s[8..] == d;
  }

  /** The payload's date text: `isoformat()` when the value has one, `str()` otherwise,
      so an absent date is sent as the text "None". */
  function PayloadDate(d: DateValue): (s: string)
    ensures d.Calendar? ==> ParseIsoDate(s) == Some((d.year as int, d.month as int, d.day as int))
    ensures d.Other? ==> s == d.shown
    ensures d.Missing? ==> s == "None"
  {
    match d
    case Calendar(year, month, day) =>
      IsoFormatRoundTrip(year, month, day);
      IsoFormat(year, month, day)
    case Other(shown) => shown
    case Missing => "None"
  }
}

=== FILE: ledger.dfy ===
/**
 * The CSV ledger written by `write_csv_output`: rows already in the file that carry
 * today's date are dropped, the others are kept in file order, and one new row per
 * scraped player is appended with today's date.
 */
module Ledger {
  import opened Common
  import opened Text
  import opened Profiles

  /** One ledger row under the header Date, FIDE ID, Player Name, Standard, Rapid, Blitz.
      Every cell is text, as the CSV reader returns it. */
  datatype Row = Row(date: string, fideId: string, name: string, standard: string, rapid: string, blitz: string)

  /** Reads a rating cell back: the empty cell is no rating. */
  function ReadCell(c: string): Option<int> {
    if c == "" then None else ParseInt(c)
  }

  /** A rating as written to the file: `''` for `None`, `str(v)` otherwise, so a rating of
      0 is written as "0" and not dropped. */
  function Cell(r: Option<int>): (c: string)
    ensures c == "" <==> r.None?
    ensures ReadCell(c) == r
    ensures r.Some? ==> IsCanonicalInt(c)
    ensures r == Some(0) ==> c == "0"
  {
    ShowRating(r, "")
  }

  /** The row written for one scraped player. */
  function ProfileRow(p: Profile, today: string): (row: Row)
    ensures row.date == today && row.fideId == p.fideId && row.name == p.name
    ensures ReadCell(row.standard) == p.standard
    ensures ReadCell(row.rapid) == p.rapid
    ensures ReadCell(row.blitz) == p.blitz
  {
    Row(today, p.fideId, p.name, Cell(p.standard), Cell(p.rapid), Cell(p.blitz))
  }

  function TodayRows(ps: seq<Profile>, today: string): (rows: seq<Row>)
    ensures |rows| == |ps|
    ensures forall k :: 0 <= k < |ps| ==> rows[k] == ProfileRow(ps[k], today)
  {
    seq(|ps|, k requires 0 <= k < |ps| => ProfileRow(ps[k], today))
  }

  /** The rows of the existing file that survive: those whose date is not today. */
  function KeepOtherDays(rows: seq<Row>, today: string): (kept: seq<Row>)
    ensures |kept| <= |rows|
    ensures forall row :: row in kept <==> row in rows && row.date != today
  {
    if rows == [] then []
    else
      var rest := KeepOtherDays(rows[1..], today);
      assert forall row :: row in rows <==> row == rows[0] || row in rows[1..];
      if rows[0].date != today then [rows[0]] + rest else rest
  }

  /** Filtering a file read in two parts filters each part: surviving rows keep their order. */
  lemma {:induction false} KeepOtherDaysAppend(a: seq<Row>, b: seq<Row>, today: string)
    ensures KeepOtherDays(a + b, today) == KeepOtherDays(a, today) + KeepOtherDays(b, today)
  {
    if a == [] {
      assert a + b == b;
    } else {
      assert (a + b)[0] == a[0];
      assert (a + b)[1..] == a[1..] + b;
      KeepOtherDaysAppend(a[1..], b, today);
    }
  }

  /** Rows none of which is dated today all survive, unchanged and in order. */
  lemma {:induction false} KeepOtherDaysNoneToday(rows: seq<Row>, today: string)
    requires forall k :: 0 <= k < |rows| ==> rows[k].date != today
    ensures KeepOtherDays(rows, today) == rows
  {
    if rows != [] {
      KeepOtherDaysNoneToday(rows[1..], today);
    }
  }

  /** Rows all dated today are all dropped. */
  lemma {:induction false} KeepOtherDaysAllToday(rows: seq<Row>, today: string)
    requires forall k :: 0 <= k < |rows| ==> rows[k].date == today
    ensures KeepOtherDays(rows, today) == []
  {
    if rows != [] {
      KeepOtherDaysAllToday(rows[1..], today);
    }
  }

  /** The rows `write_csv_output` leaves in the file. */
  function MergeRows(existing: seq<Row>, today: string, ps: seq<Profile>): (rows: seq<Row>)
    ensures |ps| <= |rows| <= |existing| + |ps|
    ensures forall row :: row in rows[..|rows| - |ps|] <==> row in existing && row.date != today
    ensures rows[..|rows| - |ps|] == KeepOtherDays(existing, today)
    ensures forall k :: 0 <= k < |ps| ==> rows[|rows| - |ps| + k] == ProfileRow(ps[k], today)
    ensures forall k :: 0 <= k < |rows| && rows[k].date == today ==> |rows| - |ps| <= k
  {
    var kept := KeepOtherDays(existing, today);
    var rows := kept + TodayRows(ps, today);
    assert rows[..|rows| - |ps|] == kept;
    assert forall k :: 0 <= k < |kept| ==> kept[k] in kept;
    rows
  }

  /** A second run on the same day replaces the first run's rows: only the second run's
      players remain for today, and the rows of other days are untouched. */
  lemma MergeRowsReplacesSameDay(existing: seq<Row>, today: string, first: seq<Profile>, second: seq<Profile>)
    ensures MergeRows(MergeRows(existing, today, first), today, second) == MergeRows(existing, today, second)
  {
    var kept := KeepOtherDays(existing, today);
    var added := TodayRows(first, today);
    KeepOtherDaysAppend(kept, added, today);
    assert forall k :: 0 <= k < |kept| ==> kept[k] in kept;
    KeepOtherDaysNoneToday(kept, today);
    KeepOtherDaysAllToday(added, today);
    assert kept + [] == kept;
  }

  /** Running twice on the same day with the same players leaves the file as one run does. */
  lemma MergeRowsIdempotent(existing: seq<Row>, today: string, ps: seq<Profile>)
    ensures MergeRows(MergeRows(existing, today, ps), today, ps) == MergeRows(existing, today, ps)
  {
    MergeRowsReplacesSameDay(existing, today, ps, ps);
  }

  /** A run on a later day keeps the earlier day's rows, in place, ahead of its own rows. */
  lemma MergeRowsKeepsEarlierDays(existing: seq<Row>, day1: string, first: seq<Profile>, day2: string, second: seq<Profile>)
    requires day1 != day2
    ensures MergeRows(MergeRows(existing, day1, first), day2, second)
         == KeepOtherDays(KeepOtherDays(existing, day1), day2) + TodayRows(first, day1) + TodayRows(second, day2)
  {
    var kept := KeepOtherDays(existing, day1);
    var added := TodayRows(first, day1);
    KeepOtherDaysAppend(kept, added, day2);
    KeepOtherDaysNoneToday(added, day2);
  }
}

=== FILE: output.dfy ===
/** The two human-readable renderings: `format_ratings_output` for one player and
    `format_console_output` for a batch. */
module Output {
  import opened Common
  import opened Text
  import opened Profiles

  // ---------------------------------------------------------------- single player

  /** `format_ratings_output`: three labelled lines joined by newlines, an absent rating
      shown as "Unrated". The report splits back into exactly those lines, and reading it
      back returns the three ratings, so it loses nothing. */
  function FormatRatingsOutput(standard: Option<int>, rapid: Option<int>, blitz: Option<int>): (out: string)
    ensures Split(out, '\n') ==
      ["Standard: " + ShowRating(standard, "Unrated"),
       "Rapid: " + ShowRating(rapid, "Unrated"),
       "Blitz: " + ShowRating(blitz, "Unrated")]
    ensures ReadRatingsOutput(out) == Some((standard, rapid, blitz))
  {
    var s := "Standard: " + ShowRating(standard, "Unrated");
    var r := "Rapid: " + ShowRating(rapid, "Unrated");
    var b := "Blitz: " + ShowRating(blitz, "Unrated");
    ReportLinesSplit(standard, rapid, blitz);
    ReadShownRating(standard, "Standard: ");
    ReadShownRating(rapid, "Rapid: ");
    ReadShownRating(blitz, "Blitz: ");
    Join([s, r, b], '\n')
  }

  lemma ReportLinesSplit(standard: Option<int>, rapid: Option<int>, blitz: Option<int>)
    ensures var s, r, b := "Standard: " + ShowRating(standard, "Unrated"),
                           "Rapid: " + ShowRating(rapid, "Unrated"),
                           "Blitz: " + ShowRating(blitz, "Unrated");
      Split(Join([s, r, b], '\n'), '\n') == [s, r, b]
  {
    ShowRatingNoNewline(standard, "Unrated");
    ShowRatingNoNewline(rapid, "Unrated");
    ShowRatingNoNewline(blitz, "Unrated");
    SplitThree("Standard: " + ShowRating(standard, "Unrated"), "Rapid: " + ShowRating(rapid, "Unrated"),
               "Blitz: " + ShowRating(blitz, "Unrated"), '\n');
  }

  /** Reads one `<tag><value>` line back: "Unrated" is no rating, digits are a rating. */
  function ReadRatingLine(line: string, tag: string): Option<Option<int>> {
    if |tag| <= |line| && line[..|tag|] == tag then
      var value := line[|tag|..];
      if value == "Unrated" then Some(None)
      else match ParseInt(value)
        case Some(v) => Some(Some(v))
        case None => None
    else
      None
  }

  /** A reader for the three-line report, used to show that the report loses nothing. */
  function ReadRatingsOutput(out: string): Option<(Option<int>, Option<int>, Option<int>)> {
    var lines := Split(out, '\n');
    if |lines| != 3 then None
    else
      match (ReadRatingLine(lines[0], "Standard: "), ReadRatingLine(lines[1], "Rapid: "),
             ReadRatingLine(lines[2], "Blitz: "))
      case (Some(s), Some(r), Some(b)) => Some((s, r, b))
      case _ => None
  }

  lemma ReadShownRating(r: Option<int>, tag: string)
    ensures ReadRatingLine(tag + ShowRating(r, "Unrated"), tag) == Some(r)
  {
    var t := ShowRating(r, "Unrated");
    var line := tag + t;
    assert line[..|tag|] == tag;
    assert line[|tag|..] == t;
    if r.Some? {
      assert t[0] != "Unrated"[0];
    }
  }

  lemma SplitThree(a: string, b: string, c: string, sep: char)
    requires sep !in a && sep !in b && sep !in c
    ensures Split(Join([a, b, c], sep), sep) == [a, b, c]
  {
    SplitJoin([a, b, c], sep);
  }

  // ---------------------------------------------------------------- console table

  /** Six cells laid out as the table's f-string does: widths 12, 12, 40, 9 and 6, one
      space between cells, the last cell unpadded. */
  function Columns(date: string, id: string, name: string, standard: string, rapid: string, blitz: string): (r: string)
    ensures |date| <= 12 && |id| <= 12 && |name| <= NameWidth ==>
      && |r| > 66
      && r[..12] == PadRight(date, 12)
      && r[13..25] == PadRight(id, 12)
      && r[26..66] == PadRight(name, NameWidth)
      && r[67..] == PadRight(standard, 9) + " " + PadRight(rapid, 6) + " " + blitz
  {
    var d := PadRight(date, 12) + " ";
    var i := PadRight(id, 12) + " ";
    var n := PadRight(name, NameWidth) + " ";
    var rest := PadRight(standard, 9) + " " + PadRight(rapid, 6) + " " + blitz;
    CellsAt(PadRight(date, 12), PadRight(id, 12), PadRight(name, NameWidth), rest);
    d + (i + (n + rest))
  }

  /** Three 12-, 12- and 40-character cells, each followed by a space, start at
      offsets 0, 13 and 26, and what follows them starts at 67. */
  lemma CellsAt(a: string, b: string, c: string, rest: string)
    ensures var r := (a + " ") + ((b + " ") + ((c + " ") + rest));
      |a| == 12 && |b| == 12 && |c| == NameWidth ==>
        && |r| > 66
        && r[..12] == a
        && r[13..25] == b
        && r[26..66] == c
        && r[67..] == rest
  {
    if |a| == 12 && |b| == 12 && |c| == NameWidth {
      var t2 := (c + " ") + rest;
      var t1 := (b + " ") + t2;
      var r := (a + " ") + t1;
      assert r[..12] == (a + " ")[..12] == a;
      assert r[13..25] == t1[..12] == b;
      assert r[26..66] == t1[13..53] == t2[..40] == c;
      assert r[67..] == t1[54..] == t2[41..] == rest;
    }
  }

  /** The header line: each column title followed by the spaces that fill its column
      and the separating space, 89 characters in all. */
  const Header := "Date" + Repeat(' ', 9) + "FIDE ID" + Repeat(' ', 6) + "Player Name" + Repeat(' ', 30)
                  + "Standard" + Repeat(' ', 2) + "Rapid" + Repeat(' ', 2) + "Blitz"

  lemma PadRightSpaces(s: string, w: nat)
    requires |s| < w
    ensures PadRight(s, w) + " " == s + Repeat(' ', w - |s| + 1)
  {
  }

  /** The header is the column titles laid out like a row, so every title starts where
      its column starts. */
  lemma HeaderIsTitleRow()
    ensures Header == Columns("Date", "FIDE ID", "Player Name", "Standard", "Rapid", "Blitz")
    ensures |Header| == 89
  {
    var d := "Date" + Repeat(' ', 9);
    var i := "FIDE ID" + Repeat(' ', 6);
    var n := "Player Name" + Repeat(' ', 30);
    var rest := "Standard" + Repeat(' ', 2) + "Rapid" + Repeat(' ', 2) + "Blitz";
    PadRightSpaces("Date", 12);
    PadRightSpaces("FIDE ID", 12);
    PadRightSpaces("Player Name", NameWidth);
    PadRightSpaces("Standard", 9);
    PadRightSpaces("Rapid", 6);
    assert PadRight("Standard", 9) + " " + PadRight("Rapid", 6) + " " + "Blitz" == rest;
    assert Header == d + (i + (n + rest));
  }

  /** A rule of dashes as wide as the header. */
  const Separator := Repeat('-', |Header|)

  const NoDataMessage := "No player data to display.\n"

  /** The width of the name column. */
  const NameWidth := 40

  /** The name as the table shows it: "Unknown" for an empty name, and a name longer
      than the column cut to 37 characters plus "...". */
  function DisplayName(name: string): (r: string)
    ensures 0 < |r| <= NameWidth
    ensures name == "" ==> r == "Unknown"
    ensures 0 < |name| <= NameWidth ==> r == name
    ensures |name| > NameWidth ==> |r| == NameWidth && r == name[..37] + "..."
  {
    var shown := if name == "" then "Unknown" else name;
    if |shown| > NameWidth then shown[..37] + "..." else shown
  }

  /** One table row, each cell left-justified in its column. */
  function ConsoleRow(p: Profile, today: string): (row: string)
    ensures |today| <= 12 && |p.fideId| <= 12 ==> |row| > 66
    ensures |today| <= 12 && |p.fideId| <= 12 ==>
      && row[..12] == PadRight(today, 12)
      && row[13..25] == PadRight(p.fideId, 12)
      && row[26..66] == PadRight(DisplayName(p.name), NameWidth)
      && row[67..] == PadRight(ShowRating(p.standard, "Unrated"), 9) + " "
                      + PadRight(ShowRating(p.rapid, "Unrated"), 6) + " " + ShowRating(p.blitz, "Unrated")
  {
    Columns(today, p.fideId, DisplayName(p.name), ShowRating(p.standard, "Unrated"),
            ShowRating(p.rapid, "Unrated"), ShowRating(p.blitz, "Unrated"))
  }

  function ConsoleRows(ps: seq<Profile>, today: string): (rows: seq<string>)
    ensures |rows| == |ps|
    ensures forall k :: 0 <= k < |ps| ==> rows[k] == ConsoleRow(ps[k], today)
  {
    seq(|ps|, k requires 0 <= k < |ps| => ConsoleRow(ps[k], today))
  }

  /** `format_console_output`: a fixed message for no players; otherwise header, rule and
      one row per player, every line ended by a newline. */
  function FormatConsoleOutput(ps: seq<Profile>, today: string): (out: string)
    ensures ps == [] ==> out == NoDataMessage
    ensures ps != [] ==> |out| > |Header| && out[|out| - 1] == '\n'
    ensures ps != [] ==> out[..|Header| + 1] == Header + "\n"
  {
    if ps == [] then NoDataMessage
    else
      var rest := [Separator] + ConsoleRows(ps, today);
      JoinedStartsWith(Header, rest, '\n');
      Join([Header] + rest, '\n') + "\n"
  }

  /** When no date, id or name holds a newline, the table's lines are exactly the header,
      the rule and one row per player in order, followed by the empty text after the
      final newline. */
  lemma ConsoleOutputLines(ps: seq<Profile>, today: string)
    requires ps != []
    requires '\n' !in today
    requires forall k :: 0 <= k < |ps| ==> '\n' !in ps[k].fideId && '\n' !in ps[k].name
    ensures Split(FormatConsoleOutput(ps, today), '\n') == [Header, Separator] + ConsoleRows(ps, today) + [""]
    ensures |Split(FormatConsoleOutput(ps, today), '\n')| == |ps| + 3
  {
    var rows := ConsoleRows(ps, today);
    assert FormatConsoleOutput(ps, today) == Join([Header] + ([Separator] + rows), '\n') + "\n";
    TableLinesNoNewline(ps, today);
    TableSplits(rows);
  }

  lemma TableSplits(rows: seq<string>)
    requires NoneContains([Header, Separator] + rows, '\n')
    ensures Split(Join([Header] + ([Separator] + rows), '\n') + "\n", '\n') == [Header, Separator] + rows + [""]
  {
    var parts := [Header, Separator] + rows;
    assert [Header] + ([Separator] + rows) == parts;
    SplitTerminated(parts, '\n');
  }

  lemma TableLinesNoNewline(ps: seq<Profile>, today: string)
    requires '\n' !in today
    requires forall k :: 0 <= k < |ps| ==> '\n' !in ps[k].fideId && '\n' !in ps[k].name
    ensures NoneContains([Header, Separator] + ConsoleRows(ps, today), '\n')
  {
    HeaderNoNewline();
    var rows := ConsoleRows(ps, today);
    forall k | 0 <= k < |rows| ensures '\n' !in rows[k] {
      NoNewlineInRow(ps[k], today);
    }
    NoneContainsConcat([Header, Separator], rows, '\n');
  }

  lemma ColumnsNoNewline(date: string, id: string, name: string, standard: string, rapid: string, blitz: string)
    requires '\n' !in date && '\n' !in id && '\n' !in name
    requires '\n' !in standard && '\n' !in rapid && '\n' !in blitz
    ensures '\n' !in Columns(date, id, name, standard, rapid, blitz)
  {
    PadRightNoNewline(date, 12);
    PadRightNoNewline(id, 12);
    PadRightNoNewline(name, NameWidth);
    PadRightNoNewline(standard, 9);
    PadRightNoNewline(rapid, 6);
  }

  lemma HeaderNoNewline()
    ensures '\n' !in Header
  {
    HeaderIsTitleRow();
    ColumnsNoNewline("Date", "FIDE ID", "Player Name", "Standard", "Rapid", "Blitz");
  }

  lemma PadRightNoNewline(s: string, w: nat)
    requires '\n' !in s
    ensures '\n' !in PadRight(s, w)
  {
    var r := PadRight(s, w);
    forall k | 0 <= k < |r| ensures r[k] != '\n' {
      if k < |s| { assert r[k] == r[..|s|][k]; }
    }
  }

  lemma NoNewlineInRow(p: Profile, today: string)
    requires '\n' !in today && '\n' !in p.fideId && '\n' !in p.name
    ensures '\n' !in ConsoleRow(p, today)
  {
    var shown := if p.name == "" then "Unknown" else p.name;
    assert '\n' !in shown;
    assert |shown| > NameWidth ==> '\n' !in shown[..37];
    ShowRatingNoNewline(p.standard, "Unrated");
    ShowRatingNoNewline(p.rapid, "Unrated");
    ShowRatingNoNewline(p.blitz, "Unrated");
    ColumnsNoNewline(today, p.fideId, DisplayName(p.name), ShowRating(p.standard, "Unrated"),
                     ShowRating(p.rapid, "Unrated"), ShowRating(p.blitz, "Unrated"));
  }

  /** Joining a first part and at least one more, then ending with the separator, gives
      the first part and a separator up front and the separator last. */
  lemma JoinedStartsWith(first: string, rest: seq<string>, sep: char)
    requires |rest| >= 1
    ensures var out := Join([first] + rest, sep) + [sep];
      && |out| > |first|
      && out[|out| - 1] == sep
      && out[..|first| + 1] == first + [sep]
  {
    assert ([first] + rest)[1..] == rest;
    var out := Join([first] + rest, sep) + [sep];
    assert out == first + ([sep] + Join(rest, sep) + [sep]);
  }

  /** Lines joined and ended with the separator split back into the lines and a final
      empty piece. */
  lemma SplitTerminated(parts: seq<string>, sep: char)
    requires |parts| >= 1 && NoneContains(parts, sep)
    ensures Split(Join(parts, sep) + [sep], sep) == parts + [""]
  {
    JoinSnoc(parts, sep);
    NoneContainsConcat(parts, [""], sep);
    SplitJoin(parts + [""], sep);
  }

  /** Joining with one more, empty, part appends a separator. */
  lemma {:induction false} JoinSnoc(parts: seq<string>, sep: char)
    requires |parts| >= 1
    ensures Join(parts + [""], sep) == Join(parts, sep) + [sep]
    decreases |parts|
  {
    if |parts| > 1 {
      assert (parts + [""])[1..] == parts[1..] + [""];
      JoinSnoc(parts[1..], sep);
    }
  }
}

=== FILE: profiles.dfy ===
/** The per-player record that flows from the batch to the CSV ledger and the console. */
module Profiles {
  import opened Common
  import opened Text

  /** One successfully scraped player (fide_scraper.py:438-444): ratings are `None` when
      the page shows none. */
  datatype Profile = Profile(
    fideId: string,
    name: string,
    standard: Option<int>,
    rapid: Option<int>,
    blitz: Option<int>)

  /** `str(r)` for a present rating, and the caller's word (`"Unrated"`, `"unrated"`, `""`)
      for an absent one. */
  function ShowRating(r: Option<int>, absent: string): (t: string)
    ensures r.Some? ==> ParseInt(t) == r && IsCanonicalInt(t)
    ensures r.None? ==> t == absent
  {
    match r
    case Some(v) => IntToString(v)
    case None => absent
  }

  /** A rendered rating holds only digits and a sign, so never a newline. */
  lemma ShowRatingNoNewline(r: Option<int>, absent: string)
    requires '\n' !in absent
    ensures '\n' !in ShowRating(r, absent)
  {
    if r.Some? {
      var t := ShowRating(r, absent);
      assert forall k :: 0 <= k < |t| ==> IsDigit(t[k]) || t[k] == '-';
    }
  }

  /** The player's public profile page (fide_scraper.py:62, email_notifier.py:58). */
  function ProfileUrl(fideId: string): string {
    "https://ratings.fide.com/profile/" + fideId
  }
}

=== FILE: rating_text.dfy ===
/**
 * Reading a rating out of the text of a profile page's rating box:
 * `_extract_rating_from_text` and the text rules of `_extract_rating_by_selector`.
 */
module RatingText {
  import opened Common
  import opened Text

  /** The highest rating the scraper accepts (fide_scraper.py:203). */
  const MaxRating := 3000

  /** The regex assertion `\b` at position `i`: a word character on exactly one side. */
  predicate WordBoundary(t: string, i: nat)
    requires i <= |t|
  {
    (i > 0 && IsWordChar(t[i - 1])) != (i < |t| && IsWordChar(t[i]))
  }

  /** The reading of `\b(\d{3,4})\b` by what it matches: a run of exactly `k` digits,
      3 <= k <= 4, with no word character directly before or after it. */
  predicate IsToken(t: string, i: nat, k: nat) {
    && 3 <= k <= 4
    && i + k <= |t|
    && AllDigits(t[i..i + k])
    && (i == 0 || !IsWordChar(t[i - 1]))
    && (i + k == |t| || !IsWordChar(t[i + k]))
  }

  /** No token starts before position `i`. */
  predicate NoTokenBefore(t: string, i: nat) {
    forall j, k :: 0 <= j < i && 3 <= k <= 4 ==> !IsToken(t, j, k)
  }

  /** How the regex engine tries position `i`: `\b`, then four digits and `\b`, and on
      failure backtracks to three digits and `\b`. */
  function MatchAt(t: string, i: nat): (m: Option<nat>)
    requires i <= |t|
    ensures m.Some? ==> IsToken(t, i, m.value)
    ensures m.None? ==> forall k :: !IsToken(t, i, k)
  {
    if !WordBoundary(t, i) then
      None
    else if i + 4 <= |t| && AllDigits(t[i..i + 4]) && WordBoundary(t, i + 4) then
      Some(4)
    else if i + 3 <= |t| && AllDigits(t[i..i + 3]) && WordBoundary(t, i + 3) then
      Some(3)
    else
      None
  }

  /** `re.search`: tries every start position from `from` onwards, leftmost first. */
  function FindToken(t: string, from: nat): (m: Option<(nat, nat)>)
    requires from <= |t|
    ensures m.Some? ==> from <= m.value.0 && IsToken(t, m.value.0, m.value.1)
    ensures m.Some? ==> forall j, k :: from <= j < m.value.0 ==> !IsToken(t, j, k)
    ensures m.None? ==> forall j, k :: from <= j ==> !IsToken(t, j, k)
    decreases |t| - from
  {
    match MatchAt(t, from)
    case Some(k) => Some((from, k))
    case None =>
      if from == |t| then None else FindToken(t, from + 1)
  }

  function TokenValue(t: string, i: nat, k: nat): nat
    requires IsToken(t, i, k)
  {
    DigitsValue(t[i..i + k])
  }

  /** `_extract_rating_from_text`: the leftmost 3-4 digit token, if its value is at most
      3000. A too-large first token gives `None`; later tokens are never tried. */
  function ExtractRatingFromText(t: string): (r: Option<int>)
    ensures r.Some? ==> 0 <= r.value <= MaxRating
    ensures (forall i, k :: !IsToken(t, i, k)) ==> r.None?
    ensures forall i, k :: IsToken(t, i, k) && NoTokenBefore(t, i) ==>
      r == if TokenValue(t, i, k) <= MaxRating then Some(TokenValue(t, i, k) as int) else None
  {
    match FindToken(t, 0)
    case None => None
    case Some((i, k)) =>
      var v := TokenValue(t, i, k);
      if 0 <= v <= MaxRating then Some(v) else None
  }

  /** The words a rating box shows for an unrated player, compared in lower case. */
  const UnratedWords: seq<string> := ["not rated", "unrated"]

  /** The text rules of `_extract_rating_by_selector` for the box's first paragraph:
      "Not rated" / "Unrated" in any case means no rating, anything else is read by
      `ExtractRatingFromText`. */
  function ClassifyRatingText(t: string): (r: Option<int>)
    ensures ToLower(t) in UnratedWords ==> r.None?
    ensures ToLower(t) !in UnratedWords ==> r == ExtractRatingFromText(t)
    ensures r.Some? ==> 0 <= r.value <= MaxRating
  {
    if ToLower(t) in UnratedWords then None else ExtractRatingFromText(t)
  }

  /** The explicit "not rated" test never changes the outcome: those words hold no digit,
      so the number search already finds nothing in them. */
  lemma UnratedCheckIsRedundant(t: string)
    ensures ClassifyRatingText(t) == ExtractRatingFromText(t)
  {
    var low := ToLower(t);
    if low in UnratedWords {
      assert forall w :: w in UnratedWords ==> forall i :: 0 <= i < |w| ==> !IsDigit(w[i]);
      forall i: nat, k: nat ensures !IsToken(t, i, k) {
        if 3 <= k <= 4 && i + k <= |t| {
          assert t[i..i + k][0] == t[i];
        }
      }
    }
  }
}

=== FILE: ratings_api.dfy ===
/**
 * Posting new months to the external ratings API: the both-or-nothing configuration
 * rule, the bounded retry loop of one POST, and the per-month posting of a batch. The
 * server's replies are a parameter: `respond(post, attempt)` is what the `attempt`-th
 * try of the `post`-th request receives.
 */
module RatingsApi {
  import opened Common
  import opened Text
  import opened History

  // ---------------------------------------------------------------- configuration

  datatype ApiConfig = ApiConfig(endpoint: string, token: string)

  /** `_load_api_config`: FIDE_RATINGS_API_ENDPOINT and API_TOKEN (each "" when unset),
      stripped; posting is on only when both are non-blank. */
  function LoadApiConfig(endpointEnv: string, tokenEnv: string): (c: Option<ApiConfig>)
    ensures c.Some? <==> !AllSpace(endpointEnv) && !AllSpace(tokenEnv)
    ensures c.Some? ==> c.value.endpoint == Strip(endpointEnv) && c.value.token == Strip(tokenEnv)
    ensures c.Some? ==> c.value.endpoint != "" && c.value.token != ""
  {
    var endpoint := Strip(endpointEnv);
    var token := Strip(tokenEnv);
    if endpoint == "" && token == "" then None
    else if endpoint != "" && token == "" then None
    else if token != "" && endpoint == "" then None
    else Some(ApiConfig(endpoint, token))
  }

  // ---------------------------------------------------------------- one POST with retries

  /** What one try of a POST ends in. */
  datatype ApiResponse =
    | Status(code: int)
    | Timeout
    | ConnectionError
    | Other

  /** A reply worth another try: a server error (5xx and above), a timeout, or a failed
      connection. Client errors, other statuses and unexpected exceptions are final. */
  predicate Retryable(r: ApiResponse) {
    (r.Status? && r.code >= 500) || r.Timeout? || r.ConnectionError?
  }

  /** The retry budget `send_batch_api_updates` uses. */
  const DefaultMaxRetries := 1

  /** The reference outcome of a POST: some try within the budget of `maxRetries + 1`
      receives 200 and every try before it got a retryable reply. */
  ghost predicate PostSucceeds(maxRetries: int, respond: nat -> ApiResponse) {
    exists a: nat :: a <= maxRetries && respond(a) == Status(200)
      && forall b: nat :: b < a ==> Retryable(respond(b))
  }

  /** `_post_rating_to_api`: tries until a 200, a final reply, or the budget runs out.
      `attempts` is how many tries were made. */
  method PostRatingToApi(maxRetries: int, respond: nat -> ApiResponse) returns (ok: bool, attempts: nat)
    ensures attempts <= if maxRetries < 0 then 0 else maxRetries + 1
    ensures maxRetries >= 0 ==> attempts >= 1
    ensures ok <==> attempts >= 1 && respond(attempts - 1) == Status(200)
    ensures forall b: nat :: b + 1 < attempts ==> Retryable(respond(b))
    ensures attempts >= 1 && !ok ==> !Retryable(respond(attempts - 1)) || attempts == maxRetries + 1
    ensures ok <==> PostSucceeds(maxRetries, respond)
  {
    var attempt: nat := 0;
    while attempt <= maxRetries
      invariant attempt <= maxRetries || (attempt == 0 && maxRetries < 0)
      invariant forall b: nat :: b < attempt ==> Retryable(respond(b))
      invariant forall b: nat :: b < attempt ==> respond(b) != Status(200)
      decreases maxRetries - attempt
    {
      match respond(attempt)
      case Status(code) =>
        if code == 200 {
          return true, attempt + 1;
        }
        if 400 <= code < 500 {
          return false, attempt + 1;
        }
        if attempt < maxRetries && code >= 500 {
          attempt := attempt + 1;
        } else {
          return false, attempt + 1;
        }
      case Timeout =>
        if attempt < maxRetries {
          attempt := attempt + 1;
        } else {
          return false, attempt + 1;
        }
      case ConnectionError =>
        if attempt < maxRetries {
          attempt := attempt + 1;
        } else {
          return false, attempt + 1;
        }
      case Other =>
        return false, attempt + 1;
    }
    return false, 0;
  }

  // ---------------------------------------------------------------- the batch

  /** The JSON body of one POST. */
  datatype Payload = Payload(
    date: string,
    fideId: string,
    playerName: string,
    standard: Option<int>,
    rapid: Option<int>,
    blitz: Option<int>)

  /** The payload for one new month of one result: identity from the result (id
      "unknown" when absent), date and ratings from the month. */
  function BuildPayload(r: PlayerResult, m: MonthRecord): (p: Payload)
    ensures p.fideId == r.fideId.GetOr("unknown") && p.playerName == r.name
    ensures p.standard == m.standard && p.rapid == m.rapid && p.blitz == m.blitz
    ensures m.date.Calendar? ==> ParseIsoDate(p.date) == Some((m.date.year as int, m.date.month as int, m.date.day as int))
    ensures m.date.Missing? ==> p.date == "None"
    ensures m.date.Other? ==> p.date == m.date.shown
  {
    Payload(PayloadDate(m.date), r.fideId.GetOr("unknown"), r.name, m.standard, m.rapid, m.blitz)
  }

  /** One payload per new month of a result, in month order. */
  function ResultPayloads(r: PlayerResult): (ps: seq<Payload>)
    ensures |ps| == |r.newMonths|
    ensures forall j :: 0 <= j < |ps| ==> ps[j] == BuildPayload(r, r.newMonths[j])
  {
    seq(|r.newMonths|, j requires 0 <= j < |r.newMonths| => BuildPayload(r, r.newMonths[j]))
  }

  /** Every payload of a batch, result by result. */
  function AllPayloads(results: seq<PlayerResult>): seq<Payload> {
    if results == [] then []
    else AllPayloads(results[..|results| - 1]) + ResultPayloads(results[|results| - 1])
  }

  /** The number of new-month records across a batch. */
  function TotalNewMonths(results: seq<PlayerResult>): nat {
    if results == [] then 0
    else TotalNewMonths(results[..|results| - 1]) + |results[|results| - 1].newMonths|
  }

  /** One more result adds its own payloads at the end. */
  lemma AllPayloadsStep(results: seq<PlayerResult>, i: nat)
    requires i < |results|
    ensures AllPayloads(results[..i + 1]) == AllPayloads(results[..i]) + ResultPayloads(results[i])
  {
    assert results[..i + 1][..i] == results[..i];
  }

  lemma {:induction false} AllPayloadsCount(results: seq<PlayerResult>)
    ensures |AllPayloads(results)| == TotalNewMonths(results)
  {
    if results != [] {
      AllPayloadsCount(results[..|results| - 1]);
    }
  }

  /** A result without new months contributes no payload. */
  lemma {:induction false} NoNewMonthsNoPayloads(results: seq<PlayerResult>)
    requires forall k :: 0 <= k < |results| ==> results[k].newMonths == []
    ensures AllPayloads(results) == []
  {
    if results != [] {
      NoNewMonthsNoPayloads(results[..|results| - 1]);
    }
  }

  /** The replies the `post`-th request receives, try by try. */
  function Replies(respond: (nat, nat) -> ApiResponse, post: nat): nat -> ApiResponse {
    (a: nat) => respond(post, a)
  }

  /** How many of the first `n` posts succeed, each with the default retry budget. */
  ghost function Successes(n: nat, respond: (nat, nat) -> ApiResponse): nat {
    if n == 0 then 0
    else Successes(n - 1, respond) + (if PostSucceeds(DefaultMaxRetries, Replies(respond, n - 1)) then 1 else 0)
  }

  /** The inner loop: every new month of one result posted in turn, the first as post
      number `start`. */
  method PostNewMonths(r: PlayerResult, start: nat, respond: (nat, nat) -> ApiResponse)
    returns (posted: nat, failed: nat, payloads: seq<Payload>)
    ensures payloads == ResultPayloads(r)
    ensures posted + failed == |r.newMonths|
    ensures Successes(start + |r.newMonths|, respond) == Successes(start, respond) + posted
  {
    payloads := [];
    posted, failed := 0, 0;
    var j := 0;
    while j < |r.newMonths|
      invariant 0 <= j <= |r.newMonths|
      invariant payloads == ResultPayloads(r)[..j]
      invariant posted + failed == j
      invariant Successes(start + j, respond) == Successes(start, respond) + posted
    {
      var payload := BuildPayload(r, r.newMonths[j]);
      var ok, _ := PostRatingToApi(DefaultMaxRetries, Replies(respond, start + j));
      assert ResultPayloads(r)[..j + 1] == ResultPayloads(r)[..j] + [payload];
      payloads := payloads + [payload];
      if ok {
        posted := posted + 1;
      } else {
        failed := failed + 1;
      }
      j := j + 1;
    }
    assert ResultPayloads(r)[..j] == ResultPayloads(r);
  }

  /** The outer loop: each result's new months posted in turn, results without new months
      skipped. */
  method PostAllResults(results: seq<PlayerResult>, respond: (nat, nat) -> ApiResponse)
    returns (posted: nat, failed: nat, payloads: seq<Payload>)
    ensures payloads == AllPayloads(results)
    ensures posted + failed == |payloads|
    ensures posted == Successes(|payloads|, respond)
  {
    payloads := [];
    posted, failed := 0, 0;
    var i := 0;
    while i < |results|
      invariant 0 <= i <= |results|
      invariant payloads == AllPayloads(results[..i])
      invariant posted + failed == |payloads|
      invariant posted == Successes(|payloads|, respond)
    {
      var r := results[i];
      AllPayloadsStep(results, i);
      if r.newMonths == [] {
        assert ResultPayloads(r) == [];
        i := i + 1;
        continue;
      }
      var p, f, ps := PostNewMonths(r, |payloads|, respond);
      payloads := payloads + ps;
      posted, failed := posted + p, failed + f;
      i := i + 1;
    }
    assert results[..i] == results;
  }

  /** `send_batch_api_updates`: nothing happens without a configuration; otherwise each
      new month of each result is posted once, in order, and counted as posted or
      failed. `payloads` are the bodies sent. */
  method SendBatchApiUpdates(results: seq<PlayerResult>, endpointEnv: string, tokenEnv: string,
                             respond: (nat, nat) -> ApiResponse)
    returns (posted: nat, failed: nat, payloads: seq<Payload>)
    ensures LoadApiConfig(endpointEnv, tokenEnv).None? ==> posted == 0 && failed == 0 && payloads == []
    ensures LoadApiConfig(endpointEnv, tokenEnv).Some? ==>
      && payloads == AllPayloads(results)
      && posted + failed == TotalNewMonths(results)
      && posted == Successes(|payloads|, respond)
  {
    var config := LoadApiConfig(endpointEnv, tokenEnv);
    if config.None? {
      return 0, 0, [];
    }
    posted, failed, payloads := PostAllResults(results, respond);
    AllPayloadsCount(results);
  }
}

=== FILE: text.dfy ===
/**
 * The string primitives the scripts lean on: character classes, `str.strip()`,
 * `str.lower()`, `int()` / `str()` on decimal numbers, `str.split` / `str.join`
 * on a one-character separator, and left-justified padding.
 *
 * Python applies the Unicode definitions of digit, whitespace, letter and
 * word character; this model uses the ASCII ones throughout.
 */
module Text {
  import opened Common

  /** An ASCII decimal digit: `str.isdigit` and the regex class `\d`. */
  predicate IsDigit(c: char) {
    '0' <= c <= '9'
  }

  /** The regex class `\w`: ASCII letters, digits and underscore. */
  predicate IsWordChar(c: char) {
    'a' <= c <= 'z' || 'A' <= c <= 'Z' || IsDigit(c) || c == '_'
  }

  /** The ASCII characters `str.strip()` removes: tab to carriage return, the
      four separators 0x1C-0x1F, and space. */
  predicate IsSpace(c: char) {
    c == ' ' || '\t' <= c <= '\r' || '\U{1C}' <= c <= '\U{1F}'
  }

  predicate AllDigits(s: string) {
    forall i :: 0 <= i < |s| ==> IsDigit(s[i])
  }

  predicate AllSpace(s: string) {
    forall i :: 0 <= i < |s| ==> IsSpace(s[i])
  }

  function Repeat(c: char, n: nat): (r: string)
    ensures |r| == n
    ensures forall i :: 0 <= i < n ==> r[i] == c
  {
    seq(n, _ => c)
  }

  // ---------------------------------------------------------------- strip

  function TrimLeft(s: string): (r: string)
    ensures |r| <= |s| && r == s[|s| - |r|..]
    ensures AllSpace(s[..|s| - |r|])
    ensures r == [] || !IsSpace(r[0])
  {
    if |s| > 0 && IsSpace(s[0]) then
      var t := s[1..];
      var r := TrimLeft(t);
      var n := |s| - |r|;
      assert n - 1 == |t| - |r|;
      SpacePrefixGrows(s, n);
      r
    else
      s
  }

  function TrimRight(s: string): (r: string)
    ensures |r| <= |s| && r == s[..|r|]
    ensures AllSpace(s[|r|..])
    ensures r == [] || !IsSpace(r[|r| - 1])
  {
    if |s| > 0 && IsSpace(s[|s| - 1]) then
      var r := TrimRight(s[..|s| - 1]);
      SpaceSuffixGrows(s, |r|);
      r
    else
      s
  }

  /** One leading space before a run of spaces of `s[1..]` makes a run of `s`. */
  lemma SpacePrefixGrows(s: string, n: nat)
    requires 1 <= n <= |s| && IsSpace(s[0]) && AllSpace(s[1..][..n - 1])
    ensures AllSpace(s[..n]) && s[n..] == s[1..][n - 1..]
  {
    forall k | 1 <= k < n ensures IsSpace(s[k]) {
      assert s[k] == s[1..][..n - 1][k - 1];
    }
  }

  /** One trailing space after a run of spaces of `s[..|s| - 1]` makes a run of `s`. */
  lemma SpaceSuffixGrows(s: string, n: nat)
    requires n < |s| && IsSpace(s[|s| - 1]) && AllSpace(s[..|s| - 1][n..])
    ensures AllSpace(s[n..]) && s[..n] == s[..|s| - 1][..n]
  {
    forall k | n <= k < |s| - 1 ensures IsSpace(s[k]) {
      assert s[k] == s[..|s| - 1][n..][k - n];
    }
  }

  /** No whitespace at either end. */
  predicate IsStripped(s: string) {
    s == [] || (!IsSpace(s[0]) && !IsSpace(s[|s| - 1]))
  }

  /** Python's `s.strip()`: `s` with its leading and trailing whitespace removed. */
  function Strip(s: string): (r: string)
    ensures |r| <= |s|
    ensures IsStripped(r)
    ensures r == [] <==> AllSpace(s)
    ensures IsStripped(s) ==> r == s
  {
    var l := TrimLeft(s);
    var r := TrimRight(l);
    assert r == [] ==> AllSpace(s) by {
      if r == [] {
        assert |l| == 0;
        forall i | 0 <= i < |s| ensures IsSpace(s[i]) {
          assert s[i] == s[..|s| - |l|][i];
        }
      }
    }
    r
  }

  // ---------------------------------------------------------------- lower

  function LowerChar(c: char): char {
    if 'A' <= c <= 'Z' then (c as int + 32) as char else c
  }

  /** Python's `s.lower()` on ASCII letters. */
  function ToLower(s: string): (r: string)
    ensures |r| == |s|
    ensures forall i :: 0 <= i < |s| ==> r[i] == LowerChar(s[i])
  {
    seq(|s|, i requires 0 <= i < |s| => LowerChar(s[i]))
  }

  // ---------------------------------------------------------------- decimal numbers

  function DigitChar(d: nat): (c: char)
    requires d < 10
    ensures IsDigit(c)
  {
    ('0' as int + d) as char
  }

  function DigitValue(c: char): (d: nat)
    requires IsDigit(c)
    ensures d < 10
  {
    var d := c as int - '0' as int;
    assert 0 <= d < 10;
    d
  }

  /** Python's `int(s)` on a non-empty run of ASCII digits (leading zeros allowed). */
  function DigitsValue(s: string): nat
    requires AllDigits(s)
  {
    if s == [] then 0 else 10 * DigitsValue(s[..|s| - 1]) + DigitValue(s[|s| - 1])
  }

  /** Python's `str(n)` for a natural number: canonical decimal digits that read back as `n`. */
  function NatToString(n: nat): (r: string)
    ensures 1 <= |r| && AllDigits(r)
    ensures DigitsValue(r) == n
    ensures r[0] == '0' ==> r == "0"
  {
    if n < 10 then
      [DigitChar(n)]
    else
      var front := NatToString(n / 10);
      var r := front + [DigitChar(n % 10)];
      assert r[..|r| - 1] == front;
      r
  }

  /** Reads an optionally negated run of digits, the inverse of `IntToString`. */
  function ParseInt(s: string): Option<int> {
    if |s| > 1 && s[0] == '-' && AllDigits(s[1..]) then Some(0 - DigitsValue(s[1..]) as int)
    else if |s| > 0 && AllDigits(s) then Some(DigitsValue(s))
    else None
  }

  /** Integer text as Python's `str` writes it: an optional `-` followed by digits with
      no leading zero, "0" itself being the only text that starts with `0`; never "-0". */
  predicate IsCanonicalInt(t: string) {
    && |t| >= 1
    && (if t[0] == '-' then |t| >= 2 && t[1] != '0' else t[0] != '0' || t == "0")
  }

  /** Python's `str(i)` for an integer: a `-` sign for negatives, then the digits. */
  function IntToString(i: int): (r: string)
    ensures ParseInt(r) == Some(i)
    ensures |r| >= 1 && (IsDigit(r[0]) || r[0] == '-')
    ensures forall k :: 0 <= k < |r| ==> IsDigit(r[k]) || r[k] == '-'
    ensures i >= 0 ==> r[0] != '-' && (r[0] == '0' ==> r == "0")
    ensures i < 0 ==> |r| >= 2 && r[0] == '-' && r[1] != '0'
    ensures IsCanonicalInt(r)
  {
    if i < 0 then
      var digits := NatToString(-i);
      var r := "-" + digits;
      assert r[1..] == digits;
      r
    else
      NatToString(i)
  }

  /** Digits that do not start with `0` have a positive value. */
  lemma {:induction false} LeadingDigitPositive(s: string)
    requires |s| >= 1 && AllDigits(s) && s[0] != '0'
    ensures DigitsValue(s) >= 1
    decreases |s|
  {
    if |s| > 1 {
      var front := s[..|s| - 1];
      assert front[0] == s[0];
      LeadingDigitPositive(front);
    }
  }

  /** Two digit runs without a leading zero and with the same value are the same text. */
  lemma {:induction false} DigitsUnique(a: string, b: string)
    requires |a| >= 1 && AllDigits(a) && a[0] != '0'
    requires |b| >= 1 && AllDigits(b) && b[0] != '0'
    requires DigitsValue(a) == DigitsValue(b)
    ensures a == b
    decreases |a| + |b|
  {
    var fa, fb := a[..|a| - 1], b[..|b| - 1];
    var la, lb := DigitValue(a[|a| - 1]), DigitValue(b[|b| - 1]);
    assert DigitsValue(a) == 10 * DigitsValue(fa) + la;
    assert DigitsValue(b) == 10 * DigitsValue(fb) + lb;
    assert la == lb && DigitsValue(fa) == DigitsValue(fb);
    if |a| > 1 && |b| > 1 {
      assert fa[0] == a[0] && fb[0] == b[0];
      DigitsUnique(fa, fb);
      assert a == fa + [a[|a| - 1]] && b == fb + [b[|b| - 1]];
    } else if |a| > 1 {
      assert fa[0] == a[0];
      LeadingDigitPositive(fa);
    } else if |b| > 1 {
      assert fb[0] == b[0];
      LeadingDigitPositive(fb);
    }
  }

  /** The only canonical text that reads as zero is "0": "-0" and "00" are not canonical. */
  lemma CanonicalZero(t: string)
    requires IsCanonicalInt(t) && ParseInt(t) == Some(0)
    ensures t == "0"
  {
    if t[0] == '-' {
      LeadingDigitPositive(t[1..]);
    } else if t[0] != '0' {
      LeadingDigitPositive(t);
    }
  }

  /** Canonical text determines the integer's text: any canonical text that reads back as
      `i` is `str(i)`. */
  lemma CanonicalIntText(t: string, i: int)
    requires IsCanonicalInt(t) && ParseInt(t) == Some(i)
    ensures t == IntToString(i)
  {
    var u := IntToString(i);
    if i == 0 {
      CanonicalZero(t);
      CanonicalZero(u);
    } else if i < 0 {
      assert t[0] == '-' && u[0] == '-';
      DigitsUnique(t[1..], u[1..]);
      assert t == [t[0]] + t[1..] && u == [u[0]] + u[1..];
    } else {
      assert t[0] != '-' && u[0] != '-';
      DigitsUnique(t, u);
    }
  }

  // ---------------------------------------------------------------- split and join

  function IndexOf(s: string, c: char): (k: nat)
    requires c in s
    ensures k < |s| && s[k] == c
    ensures forall i :: 0 <= i < k ==> s[i] != c
  {
    if s[0] == c then 0 else 1 + IndexOf(s[1..], c)
  }

  /** Python's `sep.join(parts)`. */
  function Join(parts: seq<string>, sep: char): string {
    if |parts| == 0 then ""
    else if |parts| == 1 then parts[0]
    else parts[0] + [sep] + Join(parts[1..], sep)
  }

  /** No part holds the separator. */
  predicate NoneContains(parts: seq<string>, sep: char) {
    forall k :: 0 <= k < |parts| ==> sep !in parts[k]
  }

  lemma NoneContainsConcat(a: seq<string>, b: seq<string>, sep: char)
    requires NoneContains(a, sep) && NoneContains(b, sep)
    ensures NoneContains(a + b, sep)
  {
    forall k | 0 <= k < |a + b| ensures sep !in (a + b)[k] {
      if k >= |a| {
        assert (a + b)[k] == b[k - |a|];
      }
    }
  }

  /** Python's `s.split(sep)`: the pieces between the separators, never empty as a list. */
  function Split(s: string, sep: char): (r: seq<string>)
    ensures |r| >= 1
    ensures forall k :: 0 <= k < |r| ==> sep !in r[k]
    decreases |s|
  {
    if sep in s then
      var k := IndexOf(s, sep);
      [s[..k]] + Split(s[k + 1..], sep)
    else
      [s]
  }

  /** Splitting undoes joining, as long as no part holds the separator. */
  lemma {:induction false} SplitJoin(parts: seq<string>, sep: char)
    requires |parts| >= 1
    requires NoneContains(parts, sep)
    ensures Split(Join(parts, sep), sep) == parts
    decreases |parts|
  {
    if |parts| > 1 {
      var head := parts[0];
      var tail := Join(parts[1..], sep);
      var s := head + [sep] + tail;
      assert s[|head|] == sep;
      var k := IndexOf(s, sep);
      assert forall i :: 0 <= i < |head| ==> s[i] == head[i];
      assert k == |head|;
      assert s[..k] == head;
      assert s[k + 1..] == tail;
      SplitJoin(parts[1..], sep);
      assert Split(s, sep) == [head] + parts[1..];
    }
  }

  // ---------------------------------------------------------------- padding

  /** Python's `f"{s:<w}"`: `s` left-justified in a field of `w` characters; a longer `s`
      is kept whole. */
  function PadRight(s: string, w: nat): (r: string)
    ensures |r| == if |s| < w then w else |s|
    ensures r[..|s|] == s
    ensures forall i :: |s| <= i < |r| ==> r[i] == ' '
  {
    if |s| < w then s + Repeat(' ', w - |s|) else s
  }
}

=== FILE: validation.dfy ===
/** Checking FIDE ids and reading them from the roster file. */
module Validation {
  import opened Common
  import opened Text

  /** What `validate_fide_id` may be handed: a string, or any other Python value
      (`None`, an `int`, a list, ...). */
  datatype Arg = Str(s: string) | NotAString

  /** `validate_fide_id`: falsy or non-string input, non-digits and lengths outside
      4..10 are each rejected in turn. */
  function ValidateFideId(a: Arg): (ok: bool)
    ensures ok <==> a.Str? && 4 <= |a.s| <= 10 && AllDigits(a.s)
  {
    if a.NotAString? || a.s == "" then false
    else if !AllDigits(a.s) then false
    else if |a.s| < 4 || |a.s| > 10 then false
    else true
  }

  predicate IsValidFideId(s: string) {
    ValidateFideId(Str(s))
  }

  /** The cases the validation tests spell out. */
  lemma ValidationExamples()
    ensures IsValidFideId("1234") && IsValidFideId("1234567890") && IsValidFideId("538026660")
    ensures !IsValidFideId("123") && !IsValidFideId("12345678901") && !IsValidFideId("")
    ensures !IsValidFideId("abcd1234") && !IsValidFideId("1234-5678") && !IsValidFideId("1234 5678")
    ensures !ValidateFideId(NotAString)
  {
    assert !IsDigit("abcd1234"[0]);
    assert !IsDigit("1234-5678"[4]);
    assert !IsDigit("1234 5678"[4]);
  }

  /** What one line contributes: its stripped text, unless that is empty. */
  function Keep(line: string): (kept: seq<string>)
    ensures |kept| <= 1
    ensures |kept| == 1 <==> Strip(line) != ""
    ensures |kept| == 1 ==> kept[0] == Strip(line) && IsStripped(kept[0])
  {
    var stripped := Strip(line);
    if stripped != "" then [stripped] else []
  }

  /** Ids as the roster reader hands them out: non-empty, with no whitespace at either end. */
  predicate AllStrippedIds(ids: seq<string>) {
    forall k :: 0 <= k < |ids| ==> ids[k] != "" && IsStripped(ids[k])
  }

  lemma StrippedIdsAppend(x: seq<string>, y: seq<string>)
    requires AllStrippedIds(x) && AllStrippedIds(y)
    ensures AllStrippedIds(x + y)
  {
    forall k | |x| <= k < |x| + |y| ensures (x + y)[k] == y[k - |x|] {
    }
  }

  /** The line filter of `read_fide_ids_from_file`: each line stripped, blank lines dropped. */
  function ReadFideIds(lines: seq<string>): (ids: seq<string>)
    ensures |ids| <= |lines|
    ensures AllStrippedIds(ids)
  {
    if lines == [] then []
    else
      var head, rest := Keep(lines[0]), ReadFideIds(lines[1..]);
      StrippedIdsAppend(head, rest);
      head + rest
  }

  /** Every non-blank line yields its stripped text as an id, and every id is such a line. */
  lemma {:induction false} ReadFideIdsMembers(lines: seq<string>)
    ensures forall k :: 0 <= k < |lines| && Strip(lines[k]) != "" ==> Strip(lines[k]) in ReadFideIds(lines)
    ensures forall x :: x in ReadFideIds(lines) ==> exists k :: 0 <= k < |lines| && Strip(lines[k]) == x
  {
    if lines != [] {
      var tail := lines[1..];
      var head, rest := Keep(lines[0]), ReadFideIds(tail);
      assert ReadFideIds(lines) == head + rest;
      ReadFideIdsMembers(tail);
      forall k | 0 <= k < |lines| && Strip(lines[k]) != "" ensures Strip(lines[k]) in head + rest {
        InAppend(Strip(lines[k]), head, rest);
        if k > 0 {
          assert lines[k] == tail[k - 1];
        }
      }
      forall x | x in head + rest ensures exists k :: 0 <= k < |lines| && Strip(lines[k]) == x {
        InAppend(x, head, rest);
        if x in rest {
          var j :| 0 <= j < |tail| && Strip(tail[j]) == x;
          assert lines[j + 1] == tail[j];
        }
      }
    }
  }

  /** Reading a file in two halves gives the ids of the first half, then those of the
      second: order is kept and each line is judged on its own. */
  lemma {:induction false} ReadFideIdsAppend(a: seq<string>, b: seq<string>)
    ensures ReadFideIds(a + b) == ReadFideIds(a) + ReadFideIds(b)
  {
    if a == [] {
      assert a + b == b;
    } else {
      assert (a + b)[0] == a[0];
      assert (a + b)[1..] == a[1..] + b;
      ReadFideIdsAppend(a[1..], b);
      AppendAssoc(Keep(a[0]), ReadFideIds(a[1..]), ReadFideIds(b));
    }
  }

  /** Feeding the ids back through the filter returns them unchanged. */
  lemma {:induction false} ReadFideIdsIdempotent(lines: seq<string>)
    ensures ReadFideIds(ReadFideIds(lines)) == ReadFideIds(lines)
  {
    if lines != [] {
      var kept := Keep(lines[0]);
      var rest := ReadFideIds(lines[1..]);
      ReadFideIdsIdempotent(lines[1..]);
      ReadFideIdsAppend(kept, rest);
      if kept != [] {
        assert kept[1..] == [];
      }
    }
  }
}
